=== FILE: README.md ===
# Claims resolution engine — a Dafny model

This project models the conversational claims engine of a customer-support
service: the part that turns one customer message and the language model's
reply into store writes, counters and a transcript. It also models the
back-office operations around those records, and the fence stripper of the
roadmap generator. Each operation is modelled as a pure function over an
immutable store, and the properties the code promises are proved about it.

The modules follow the program's structure.

| module | file | what it models |
|---|---|---|
| `Wrappers` | wrappers.dfy | `Option`; `Outcome` (a value or an escaping exception); parsed JSON values, their truthiness, and `dict.get` |
| `Text` | text.dfy | `str.strip`, substring search, `replace`, and the case folding of `re.IGNORECASE` |
| `Like` | like.dfy | the database's `ILIKE` pattern match |
| `Stats` | stats.dfy | `StatsManager`: the counters and the resolution rate |
| `Store` | store.dfy | the tables as sequences of rows; `create_claim`, `create_refund_entry`, `create_escalation_entry`, `update_claim_status` with privacy clearing, `update_company_policy` |
| `Resolver` | resolver.dfy | candidate order-reference extraction, `verify_transaction`, `check_existing_claim`, and the `[SYSTEM]` note |
| `Reply` | reply.dfy | removal of fenced decision blocks and of a bare decision object, selection of the first block, the transcript, and the UUID test |
| `Dispatch` | dispatch.dfy | the store writes of a parsed REFUND / ESCALATE / REJECT decision, including resolution of a non-UUID `transaction_id` |
| `Chat` | chat.dfy | one `chat_with_agent` turn: note, prompt, gateway outcome, cleaning, dispatch, statistics |
| `Pending` | pending.dfy | `get_pending_claims`: the filters and the context enrichment |
| `Policy` | policy.dfy | `refine_policy_with_gemini` |
| `Dashboard` | dashboard.dfy | `get_dashboard_update` |
| `Roadmap` | roadmap.py's `clean_json_output`, in roadmap.dfy | fence stripping of a JSON answer |

Modelling conventions:

- The database is a `Store` value.
  - `connected == false` stands for "no client configured". Selects then return nothing, inserts and updates do nothing, and `verify_transaction` raises, because it builds its query outside its `try`.
  - Claim rows get ids from a counter `nextId`.
  - An empty string in an id column stands for SQL NULL.
- The language model is an input.
  - `Chat.Gateway` is `NoClient | Failed(error) | Replied(text)`.
  - `Policy.Completion` is `NoClient | Failed | Completed(text)`.
- The JSON parser is an input: a function `parse: string -> Option<Json>`.
- An exception that escapes a function is the `Raised` outcome. Exceptions the source swallows are modelled by their effect, usually "nothing written".

## Model

| member | source | states |
|---|---|---|
| Wrappers.GetOr | app/services.py:563 | `get` with a default returns the entry when the key is present and the default otherwise |
| Text.Strip | app/services.py:517 | the result is a slice of the input with only whitespace cut from both ends, and it is itself stripped |
| Text.StripUnique | app/roadmap.py:18 | any stripped slice cut out of whitespace-only margins is exactly what `strip` returns |
| Text.StripPadded | app/roadmap.py:21 | whitespace added around a text does not survive `strip` |
| Text.StripIdempotent | app/roadmap.py:18-21 | stripping twice is stripping once |
| Text.Lower | app/services.py:492 | lower-casing keeps the length and lowers each ASCII capital in place |
| Text.IndexFrom | app/roadmap.py:20 | the search returns the first occurrence at or after the start, and none exactly when no occurrence exists there |
| Text.RemoveChar | app/services.py:138 | removing `#` leaves no `#`, never lengthens the text, and a text without `#` is unchanged |
| Text.RemoveCharAppend | app/services.py:138 | removal drops the removed character, keeps any other, and distributes over concatenation, so every other character survives in order |
| Text.RemoveFirst | app/roadmap.py:21 | `replace(t, "", 1)` cuts out exactly the first occurrence and leaves a text without one unchanged |
| Like.ILike | app/services.py:144 | a pattern made only of `%` and `*` matches every string, and without those two a match is never longer than the pattern |
| Like.LiteralILike | app/services.py:144 | a pattern without `%`, `*`, `_` or `\` matches exactly the strings equal to it up to case |
| Like.PercentMatchesAll | app/services.py:144 | a reference that normalises to `%` matches every transaction, because the lookup does not escape the pattern |
| Stats.Update | app/services.py:79-86 | every turn adds one interaction; resolved grows iff the action is REFUND or APPROVED, escalated grows iff it is ESCALATE |
| Stats.UpdateWithoutDecision | app/services.py:79-86 | REJECT, `None` and any non-string action only count the interaction |
| Stats.UpdateConsistent | app/services.py:79-86 | decisions never outnumber interactions, and an update keeps it so |
| Stats.ReplayCounts | app/services.py:69-86 | after any sequence of turns from a fresh manager, the counters equal the number of turns, of resolving actions and of escalating actions |
| Stats.ResolutionRate | app/services.py:93-108 | the rate lies in 0..100; with decisions it is the truncated percentage of resolved decisions; with turns but no decisions it is 100; with nothing it is 0 |
| Stats.ResolutionThreeToOne | app/services.py:93-108 | three refunds and one escalation give 75 |
| Stats.ResolutionWithoutDecisions | app/services.py:93-108 | two turns without a decision give 100; a fresh manager gives 0 |
| Store.CreateClaim | app/services.py:169-190 | with a client, exactly one row with a fresh id and the given fields is appended to `refund_requests` and nothing else changes; without a client nothing changes; valid ids stay valid |
| Store.CreateRefundEntry | app/services.py:193-205 | with a client, exactly one READY_FOR_PAYOUT row with the given amount is appended to the payout queue; without one nothing changes |
| Store.CreateEscalationEntry | app/services.py:208-219 | with a client, exactly one OPEN escalation with the given transaction and reason is appended; the customer id is stored exactly when it is non-empty, and it is the given one |
| Store.TableNamed | app/services.py:379-384 | exactly the three claim table names denote a table |
| Store.UpdateClaimStatus | app/services.py:372-406 | without a client or for an unknown table nothing changes and `None` is returned; otherwise rows are returned, and row counts, row ids, transactions and companies are kept |
| Store.UpdateReturnsRows | app/services.py:377-403 | with a client and a known table, `res.data` holds one row per row of that table with the id, each carrying the new status and otherwise as read before any clearing |
| Store.UpdateSetsStatusOnlyThere | app/services.py:379-384 | the new status lands on exactly the rows with that id in the named table, and every other status is kept |
| Store.UpdateWithoutClearKeepsContext | app/services.py:372-403 | without `clear_context`, no field other than `status` changes |
| Store.FinalizeRefundClearsIt | app/services.py:387-392 | clearing a refund request nulls its transcript and evidence link and touches no other request |
| Store.FinalizePayoutClearsLinked | app/services.py:394-401 | clearing a payout nulls the context of every request of the first updated payout's transaction and of no other; with no such payout, or a NULL transaction, nothing is cleared |
| Store.FinalizeEscalationClearsNothing | app/services.py:386-401 | updating an escalation never touches a refund request |
| Store.UpdateIdempotent | app/services.py:372-406 | applying the same update twice gives the same store as applying it once |
| Store.UpdateKeepsValid | app/services.py:372-406 | a status update keeps claim ids distinct and below the counter |
| Store.UpdateCompanyPolicy | app/services.py:410-423 | exactly the companies with that id get the new policy; nothing else changes; without a client nothing changes |
| Resolver.OrderPrefixEnd | app/services.py:479-481 | the `order id` prefix, when recognised, is a case-insensitive `order`, at least one whitespace, `id`, whitespace, an optional `:` or `#`, and whitespace, each part taken as far as it goes, so no whitespace follows its end |
| Resolver.MatchAt | app/services.py:479-481 | a match captures a non-empty run of reference characters found in the message at the group's start, and the run is maximal: the next character is not a reference character |
| Resolver.GroupStart | app/services.py:479-481 | the alternatives are tried in order: after a `#` followed by a reference character the group starts one on; else after an `order id` prefix followed by one; else at the position itself when it holds a reference character; else there is no match |
| Resolver.MatchAtWhen | app/services.py:479-481 | the pattern matches at a position iff it holds a reference character, or a `#` followed by one |
| Resolver.SearchFrom | app/services.py:479-481 | the search returns the leftmost matching position, and none iff no position matches |
| Resolver.Candidate | app/services.py:479-482 | the candidate exists iff the pattern matches somewhere, and it is the group of the leftmost match |
| Resolver.CandidateIsFirstRun | app/services.py:479-482 | unless an `order id` prefix followed by a reference character starts at the first reference character, the candidate is the first maximal run of reference characters, with or without a `#` in front |
| Resolver.NoRefCharNoCandidate | app/services.py:479-482 | a message without a reference character yields no candidate |
| Resolver.CandidateOfShortLeadingWord | app/services.py:479-482 | "My item #AB12 arrived broken" captures "My" |
| Resolver.CandidateAfterOrderIdPrefix | app/services.py:479-483 | "Order ID: AB12-9" captures "AB12-9" |
| Resolver.Normalize | app/services.py:137-138 | the normalised reference is the input with every `#` removed, then with only surrounding whitespace cut off; it has no `#` and is stripped |
| Resolver.NormalizeToken | app/services.py:137-144 | a captured token is left unchanged by normalisation and is a literal ILIKE pattern |
| Resolver.FirstTx | app/services.py:141-152 | the lookup returns a matching transaction, and none iff no transaction matches |
| Resolver.VerifyTransaction | app/services.py:137-154 | without a client it raises; otherwise the result matches the normalised reference within the company, and none means no transaction matches |
| Resolver.ExistingClaim | app/services.py:157-161 | a status is reported iff some claim row of the transaction exists, whatever its status, and it is the status of such a row; an empty id skips the filter |
| Resolver.OrderLikeIgnoresCase | app/services.py:492 | the order-language test (`order` in the lower-cased message, or a `#`) gives the same answer on a message and on its lower-cased form |
| Resolver.Classify | app/services.py:482-493 | no note unless the candidate is longer than three characters; it raises iff it must look up without a client; the note names the candidate |
| Resolver.TokenLookup | app/services.py:137-152 | a captured token is found iff some transaction of the company carries it up to case |
| Resolver.ClassifyNotFound | app/services.py:485-493 | NOT FOUND exactly for a long candidate no transaction of the company carries, in a message containing "order" (any case) or `#` |
| Resolver.ClassifyVerified | app/services.py:485-491 | a known long candidate always yields a verified note: "Claim EXISTS" with a claim row's status, or "Valid for claim" with the transaction id when it has no claim row |
| Resolver.ClassifySilentWithoutOrderLanguage | app/services.py:492-493 | an unknown candidate in a message without order language yields no note |
| Resolver.Render | app/services.py:487-493 | the note is empty iff there is nothing to report; otherwise it is a `[SYSTEM]` line starting `Tx <token> ` and ending in `Tx <token> NOT FOUND.`, `Tx <token> Verified. Claim EXISTS: <status>.` or `Tx <token> Verified. Valid for claim. UUID: <id>.` by verdict |
| Reply.BlockEnd | app/services.py:521-523 | a block needs the case-insensitive opener and ends at least ten characters on |
| Reply.BlockEndMeans | app/services.py:521-523 | the lazy block ends at the first fence after its opener, and none exists iff there is no opener or no later fence |
| Reply.RemoveJsonBlocks | app/services.py:521-523 | removing every block never lengthens the reply; what is kept is stated by the lemmas below |
| Reply.RemoveBlocksFrom | app/services.py:521-523 | removing blocks never lengthens the text |
| Reply.NoBlockKeepsText | app/services.py:521-523 | without a complete block, removal leaves the text as it is |
| Reply.KeepsTextBeforeBlock | app/services.py:521-523 | the text before the first block is kept verbatim, the block is dropped, and the scan resumes after it |
| Reply.FirstBlockFrom | app/services.py:536 | the leftmost block start at or after a position, and none iff no block starts there |
| Reply.FirstJsonBlock | app/services.py:536 | the parsed body is the body of the leftmost block, and there is none iff no block exists |
| Reply.NoBlockNoRemoval | app/services.py:521-523 | a reply without a block is kept whole |
| Reply.FirstBlockRemoved | app/services.py:521-523 | the text in front of the first block survives and the reply loses at least the ten characters of fences and tag |
| Reply.BareMatchAtMeans | app/services.py:526 | the bare pattern matches at a `{` iff a quoted `"action"` lies after it and before the last `}` |
| Reply.FirstBareFrom | app/services.py:526 | the leftmost start of a bare match, and none iff there is no match |
| Reply.StripBareAction | app/services.py:526 | the one greedy match, from the first qualifying `{` to the last `}`, is cut out; text without a match is unchanged |
| Reply.BareStripNeedsActionKey | app/services.py:526 | a text without the quoted key `"action"` keeps its braces |
| Reply.CleanReply | app/services.py:521-526 | the cleaned reply is stripped and never longer than the reply; the bare-object removal runs only when the raw reply has no fence |
| Reply.NoFenceNoBlock | app/services.py:521-525 | a reply without a fence has no block to remove |
| Reply.LastThree | app/services.py:531 | the kept history is the last three entries, or all when fewer |
| Reply.HistoryLines | app/services.py:531 | one `role: content` line per kept entry, in order |
| Reply.Transcript | app/services.py:527-533 | the transcript ends with the current exchange, and is that exchange alone exactly when there is no history; with history it is the joined lines of the last three entries, the two-character separator `\n`, and the exchange |
| Reply.JoinLinesAppend | app/services.py:531 | a join of one line is that line, and each further line is added after a backslash and an `n` |
| Reply.TranscriptOfLastThree | app/services.py:527-533 | with three or more entries the transcript is the last three lines, oldest first, each followed by the two-character separator, then the exchange |
| Reply.TranscriptEndsWithReply | app/services.py:527-533 | the transcript ends with a newline, `AI: ` and the cleaned reply |
| Reply.TranscriptStartsWithOldest | app/services.py:528-533 | with history, the transcript starts with the oldest of the last three entries |
| Reply.JoinStartsWithFirst | app/services.py:531 | a non-empty join starts with its first line |
| Reply.TranscriptForgetsOlderHistory | app/services.py:529-533 | entries older than the last three never reach the transcript |
| Reply.UuidLikeTrailingNewline | app/services.py:545 | the `$` of the UUID pattern accepts exactly one final newline: appending one keeps a 36-character UUID-shaped id UUID-shaped, and nothing else becomes UUID-shaped that way |
| Dispatch.ActionNamed | app/services.py:542 | exactly the strings REFUND, ESCALATE and REJECT name a decision |
| Dispatch.ActionType | app/services.py:537-541 | the counted action is the `action` entry of a parsed object, and `None` after a failed parse or a non-object |
| Dispatch.TransactionsWithId | app/services.py:118-130 | without a client no rows; otherwise exactly the transactions with that id |
| Dispatch.FilterIdFirst | app/services.py:552-560 | the row the writes read is the first transaction with that id in table order |
| Dispatch.ResolveTid | app/services.py:543-548 | a falsy id means no write; a truthy non-string raises; a UUID-shaped id is kept; any other string raises without a client, is kept when no transaction matches it, and otherwise becomes the non-empty id of a matching transaction; it becomes nothing only when some matching transaction has a NULL id |
| Dispatch.ResolveOrderRef | app/services.py:543-548 | an order reference given as the transaction id is kept when no transaction carries it up to case, and otherwise becomes the id of a transaction that carries it; no target comes out only if some transaction carrying it has a NULL id, so when every carrier has an id, one of those ids is the target |
| Dispatch.UniqueOrderRefResolves | app/services.py:543-548 | when exactly one transaction carries the reference, the decision is applied to that transaction's id |
| Dispatch.Target | app/services.py:543-550 | no target without a truthy `transaction_id`; a target is never empty; a UUID-shaped id is the target itself |
| Dispatch.Apply | app/services.py:550-588 | the writes only append rows, keep valid ids valid, and add at most one row per table |
| Dispatch.Decide | app/services.py:536-588 | a decision only appends rows, keeps valid ids valid, and adds at most one row per table |
| Dispatch.NoWrites | app/services.py:538-542 | a failed parse, a non-object, an unknown action and REJECT leave the store unchanged |
| Dispatch.RefundWrites | app/services.py:556-572 | REFUND queues one READY_FOR_PAYOUT entry with the transaction's amount and company iff the transaction exists; it records one APPROVED claim iff the transaction has a company, with the `reason` entry (default "Approved by AI"), the evidence link and the transcript; it opens no escalation |
| Dispatch.EscalateWrites | app/services.py:574-588 | ESCALATE opens one OPEN escalation with the `reason` entry and the customer id when there is one; it records one ESCALATED claim iff the transaction has a company, with that transaction, company, reason, evidence link and transcript; it queues no payout |
| Dispatch.UuidTargetKept | app/services.py:545 | a UUID-shaped id is used unchanged |
| Dispatch.NoTargetNoWrites | app/services.py:550 | a decision without a truthy `transaction_id` writes nothing |
| Chat.UserContent | app/services.py:509-513 | the user part starts with the message and ends with the note, with the image section between them only when an analysis is given |
| Chat.Prompt | app/services.py:508-516 | the prompt is the fixed instructions, the `CURRENT POLICY:` header, the policy, the `User: ` header and the user part, in that order and nothing else |
| Chat.GatewayRole | app/services.py:503 | `user` is kept and every other role becomes `model` |
| Chat.Decision | app/services.py:536-540 | the decision is the parse of the first block's body, and there is none when the reply has no block |
| Chat.Turn | app/services.py:466-596 | a turn raises iff the resolver must look up without a client; without a gateway client or on a failure it returns the fixed text and changes neither store nor counters; with a reply it returns the stripped reply, only appends rows, and counts one interaction |
| Chat.TurnPrompt | app/services.py:478-516 | building the prompt raises under the same condition as the turn |
| Chat.PromptCarriesNote | app/services.py:482-516 | without a long candidate, the prompt carries no note |
| Chat.PromptCarriesVerdictNote | app/services.py:482-516 | with a client and a long candidate, the prompt ends with the rendered note of the resolver's verdict, and in `Tx <token> NOT FOUND.` when the reference is unknown in order-like language |
| Chat.OnlyFirstBlockParsed | app/services.py:536-541 | two parsers that agree on the first block give the same turn, whatever they make of later blocks |
| Chat.NoBlockNoDecision | app/services.py:536-594 | without a parsable first block, the turn writes nothing and counts an interaction with no decision |
| Chat.TurnWithReply | app/services.py:515-594 | a turn that got a reply returns the stripped reply, the dispatched store and the updated counters |
| Chat.RefundTurn | app/services.py:536-593 | a REFUND on a known UUID-shaped transaction with a company queues its amount, records the APPROVED claim with the turn's transcript, and counts one more resolution |
| Chat.ShortLeadingWordIsSilent | app/services.py:479-493 | "My item #AB12 arrived broken" gets no note with any store |
| Pending.Joined | app/services.py:324-325 | a foreign key joins the transaction with that id; a NULL key or a missing id joins none |
| Pending.LastClaim | app/services.py:345 | the enrichment source is the last claim row of the transaction, and there is none iff it has no claim row |
| Pending.PayoutWithContext | app/services.py:348-353 | enrichment never changes the payout row itself |
| Pending.EscalationWithContext | app/services.py:356-360 | enrichment never changes the escalation row itself |
| Pending.PendingRefunds | app/services.py:299-305 | exactly the company's PENDING claims are listed; a NULL company column never passes the filter |
| Pending.OpenEscalations | app/services.py:306-326 | exactly the OPEN escalations whose joined transaction belongs to the company are listed |
| Pending.ReadyPayouts | app/services.py:312-318 | exactly the company's READY_FOR_PAYOUT entries are listed; a NULL company column never passes the filter |
| Pending.GetPendingClaims | app/services.py:295-369 | there is no result iff there is no client, and no list is longer than its table |
| Pending.PendingMembership | app/services.py:295-366 | each of the three lists holds exactly the rows its filter describes |
| Pending.PayoutContextFromLastClaim | app/services.py:332-353 | a listed payout has context iff a claim exists for its non-NULL transaction, and the context is the last such claim's transcript, reason and evidence link |
| Pending.EscalationContextFromLastClaim | app/services.py:332-360 | a listed escalation has context iff a claim exists for its non-NULL transaction, and the context is the last such claim's transcript and evidence link |
| Pending.NoCompanyNothingPending | app/services.py:299-326 | with an empty company id all three lists are empty |
| Pending.QueuedPayoutIsPending | app/services.py:312-318 | the payout a REFUND queues for a (non-NULL) company shows up in that company's payout list |
| Pending.FinalizedPayoutLeavesQueue | app/services.py:312-318 | a payout moved out of READY_FOR_PAYOUT leaves every payout list |
| Policy.RefinementPrompt | app/services.py:432-438 | the prompt carries the current policy, the issue context and the feedback, each after its label |
| Policy.RefinePolicy | app/services.py:426-446 | on a completion the stripped text is returned and only the company table may change; on any failure the current policy is returned and nothing changes |
| Policy.RefinedPolicyIsStored | app/services.py:442-444 | after a completion, the company's stored policy reads back as the returned one and every other company is unchanged |
| Policy.PolicyAfterUpdate | app/services.py:410-420 | after the update, the company's policy reads back as the one written |
| Policy.RefineIdempotent | app/services.py:426-446 | refining again with the same completion changes nothing further |
| Dashboard.ImageEvent | app/services.py:602-610 | the image card says "block" and "Rejected" iff the analysis contains "Failed", and "image" and "Completed" otherwise |
| Dashboard.ActionEvent | app/services.py:611-619 | the decision card carries the `action` and `reason` entries, `null` when absent |
| Dashboard.DashboardUpdate | app/services.py:599-620 | one card for a non-empty analysis and one for a non-empty decision object, image card first |
| Dashboard.ImageCardFirst | app/services.py:599-620 | every card is an event, and a card is the image card iff it is the first and an analysis was given |
| Dashboard.FailedAnalysisRejected | app/services.py:602-610 | the first card is rejected iff the analysis mentions a failure, and completed otherwise |
| Roadmap.SecondPart | app/roadmap.py:20 | after an opening fence, the part kept runs up to the next fence, or to the end when there is none, with no fence inside |
| Roadmap.CleanJsonOutput | app/roadmap.py:13-22 | the output is stripped and never longer than the input; an input that does not start with a fence once stripped comes back stripped and otherwise unchanged |
| Roadmap.FencedBody | app/roadmap.py:18-21 | a fenced body without fences and not ending in a backtick comes out with its first `json` removed, then stripped |
| Roadmap.FencedRoundTrip | app/roadmap.py:14-21 | a ```` ```json ```` fence around a fence-free text gives back the stripped text |
| Roadmap.JsonKeyCutOut | app/roadmap.py:21 | the removal is not limited to the tag: a key named `json` is cut out of the payload |

## Left out

- The language model calls (Gemini, OpenAI, Ollama) are inputs. The fixed instruction text of the chat prompt is a parameter of `Chat.Prompt` and is not reproduced.
- `json.loads` is an input function. The rest of the roadmap generator is left out: its retries with `sleep`, the global API switch, and its parsing.
- `analyze_image` is left out because it depends on an image library and a vision call. Its text reaches the model only as `imageAnalysis`.
- Company registration, login and the company listing or tagline lookup are left out. They use random credentials, password hashing and QR rendering outside the claims engine.
- Elapsed time, the random satisfaction nudge, average time and the string formatting of the statistics are left out. They are time, randomness and floats.
- The module-level mutable statistics object is modelled as a value threaded through `Chat.Turn`.
- The HTTP layer and the diagram renderer are left out. They call into the engine and are not part of it.
- Two rules live in callers that are not part of this model: the mapping of DECLINED to REJECTED, and the condition that triggers policy refinement.
- The nested `transactions(*)` join embedded in each pending row is not reproduced. The model uses the join only to filter escalations by company.
- Stats.ResolutionRate: computes the exact truncated percentage. The source divides in floating point first, so for some counts it lands one below, e.g. 29 resolved of 100 decisions shows 28.
- Like.ILike: compares letters with ASCII case folding only. The database's Unicode-aware folding of non-ASCII letters is not modelled.
- Text.Lower: lowers ASCII capitals only. That agrees with Python's `str.lower` for the one search made, which looks for `order` and contains neither `i` nor `k`.
- Store.CreateRefundEntry: the amount is an integer. The source passes the database's numeric value through unchanged.
- Store.UpdateClaimStatus: the row ids handed out by the database are modelled as a counter. A failed write is modelled as no write, with no partial failure.
- Query results are read in insertion order. None of the source's queries asks for an order, so the database may return rows in any order. Where the source keeps the last row per transaction (`claim_map`) or takes the first row returned (`res[0]`, `res.data[0]`, `tx_data[0]`), the model's choice of row rests on that order. This shows once a transaction has two claims, which nothing prevents (`Resolver.FirstTx`, `Resolver.ExistingClaim`, `Pending.LastClaim`, `Pending.PayoutContextFromLastClaim`, `Pending.EscalationContextFromLastClaim`, `Dispatch.FilterIdFirst`, `Store.FinalizePayoutClearsLinked`).
- Foreign keys and column types are not modelled: every insert with a client succeeds. The database may refuse an escalation, payout or claim whose transaction id is not an existing transaction, and the source swallows that failure and writes nothing; the model writes the row.
- Pending.PayoutWithContext: `ai_analysis_json` is taken to be an object, as `create_claim` always writes it. A NULL or non-object value written by other code makes the source's enrichment raise, and `get_pending_claims` then returns an empty result; the model does not cover that.
- An empty string in a company or transaction id column stands for SQL NULL, so an empty company id selects nothing, as `.eq` against NULL does.
- Chat.Turn: history entries are well-formed pairs. A missing `role` or `content` key, which would raise in the source, is not modelled.

## Behaviour worth knowing

The model follows the code in each case.

- **Database without a client.** Not every store operation degrades to an empty result: the transaction lookup raises when no client is configured, and that exception escapes the chat turn (`Chat.Turn`, `Resolver.Classify`).
- **One active claim per transaction.** Nothing enforces it. The code makes no check before writing: an existing claim only changes the note sent to the model.
- **Decision writes.** A REFUND does not always yield a payout and a claim, and an ESCALATE does not always yield a linked claim:
  - the payout needs the transaction row;
  - either claim needs the transaction's company;
  - the escalation insert is attempted with no check of the transaction first. Whether it then succeeds for an unknown transaction depends on the database's foreign key, which is not modelled (`Dispatch.RefundWrites`, `Dispatch.EscalateWrites`).
- **Reply shown to the user.** The user sees the whole stripped reply, not only the text before the first block. When the transcript is built, every block is removed, not only the first.
- **Privacy clearing.** A review clears the linked context only when the caller asks for it.
- **Dashboard decision card.** A card is emitted for any non-empty decision object, recognised action or not.

=== FILE: chat.dfy ===
/** One chat turn: the resolver's side note, the outbound prompt, and, once
    the language model has replied, the cleaned transcript, the store writes
    of the first decision block and the statistics update. The model's
    reply and the JSON parser are inputs; the elapsed time is not
    modelled. */
module Chat {
  import opened Wrappers
  import opened Text
  import Stats
  import opened Store
  import opened Resolver
  import opened Reply
  import opened Dispatch

  /** What the language-model gateway gave back for the prompt: no client
      configured, an exception with its message, or the reply text. */
  datatype Gateway = NoClient | Failed(error: string) | Replied(text: string)

  /** The per-turn inputs of `chat_with_agent`. An empty `imageAnalysis`,
      `customer` or `company` stands for `None`. */
  datatype TurnInput = TurnInput(
    message: string,
    history: seq<HistoryEntry>,
    imageAnalysis: string,
    companyPolicy: string,
    customer: string,
    evidence: Option<string>,
    company: string)

  /** What a turn leaves behind: the text returned to the customer, the
      store and the counters. */
  datatype TurnResult = TurnResult(reply: string, db: Store, stats: Stats.Stats)

  const ImageTag: string := "\n\n[IMAGE ANALYSIS]: "

  /** The user part of the prompt: the message, then the image analysis
      when there is one, then the resolver's note. */
  function UserContent(message: string, imageAnalysis: string, note: string): (r: string)
    ensures |r| >= |message| + |note|
    ensures r[..|message|] == message
    ensures r[|r| - |note|..] == note
    ensures imageAnalysis == "" ==> |r| == |message| + |note|
    ensures imageAnalysis != "" ==> r[|message|..|r| - |note|] == ImageTag + imageAnalysis
  {
    var withImage := if imageAnalysis != "" then message + ImageTag + imageAnalysis else message;
    withImage + note
  }

  const PolicyHeader: string := "\n\nCURRENT POLICY:\n"
  const UserHeader: string := "\n\nUser: "

  /** The single text sent to the model: the fixed instructions `base`, the
      company's current policy under its header, and the user part. */
  function Prompt(base: string, policy: string, user: string): (r: string)
    ensures |r| == |base| + |PolicyHeader| + |policy| + |UserHeader| + |user|
    ensures r[..|base|] == base
    ensures IsAt(r, PolicyHeader, |base|)
    ensures IsAt(r, policy, |base| + |PolicyHeader|)
    ensures IsAt(r, UserHeader, |base| + |PolicyHeader| + |policy|)
    ensures r[|r| - |user|..] == user
  {
    var r := base + PolicyHeader + policy + UserHeader + user;
    assert r[|base|..|base| + |PolicyHeader|] == PolicyHeader;
    assert r[|base| + |PolicyHeader|..|base| + |PolicyHeader| + |policy|] == policy;
    assert r[|base| + |PolicyHeader| + |policy|..|base| + |PolicyHeader| + |policy| + |UserHeader|] == UserHeader;
    r
  }

  /** The role the gateway receives for a history entry: `user` is kept,
      every other role is sent as `model`. */
  function GatewayRole(role: string): (r: string)
    ensures r == "user" || r == "model"
    ensures r == "user" <==> role == "user"
  {
    if role == "user" then "user" else "model"
  }

  /** The body parsed for the decision: the first block's body only. */
  function Decision(reply: string, parse: string -> Option<Json>): (r: Option<Json>)
    ensures FirstJsonBlock(reply).None? ==> r.None?
    ensures FirstJsonBlock(reply).Some? ==> r == parse(FirstJsonBlock(reply).value)
  {
    match FirstJsonBlock(reply)
    case None => None
    case Some(body) => parse(body)
  }

  /** One turn. A store without a client makes the resolver raise when the
      message carries a long candidate token, and that exception escapes
      the turn. Otherwise the gateway decides: without a client, or when it
      fails, the turn returns a fixed text and touches neither the store
      nor the counters; with a reply, the stripped reply is returned, the
      first decision block is dispatched and the counters are updated. */
  function Turn(db: Store, stats: Stats.Stats, input: TurnInput, gateway: Gateway,
                parse: string -> Option<Json>): (r: Outcome<TurnResult>)
    ensures r.Raised? <==> LongToken(input.message) && !db.connected
    ensures r.Done? && !gateway.Replied? ==> r.value.db == db && r.value.stats == stats
    ensures gateway == NoClient && r.Done? ==> r.value.reply == "API Key Configuration Error"
    ensures gateway.Failed? && r.Done? ==> r.value.reply == "Brain freeze. " + gateway.error
    ensures gateway.Replied? && r.Done? ==>
              && r.value.reply == Strip(gateway.text)
              && Extends(db, r.value.db)
              && r.value.stats.totalInteractions == stats.totalInteractions + 1
  {
    match Classify(db, input.message, input.company)
    case Raised => Raised
    case Done(_) =>
      match gateway
      case NoClient => Done(TurnResult("API Key Configuration Error", db, stats))
      case Failed(e) => Done(TurnResult("Brain freeze. " + e, db, stats))
      case Replied(text) =>
        var reply := Strip(text);
        var transcript := Transcript(input.history, input.message, CleanReply(reply));
        var parsed := Decision(reply, parse);
        Done(TurnResult(reply,
                        Decide(db, parsed, transcript, input.evidence, input.customer),
                        Stats.Update(stats, ActionType(parsed))))
  }

  /** The prompt the gateway receives for a turn that did not raise. */
  function TurnPrompt(db: Store, base: string, input: TurnInput): (r: Outcome<string>)
    ensures r.Raised? <==> LongToken(input.message) && !db.connected
  {
    match Classify(db, input.message, input.company)
    case Raised => Raised
    case Done(v) => Done(Prompt(base, input.companyPolicy, UserContent(input.message, input.imageAnalysis, Render(v))))
  }

  /** The outbound prompt ends with the message, the image analysis and the
      resolver's note, in that order; without order language or a long
      token the note is empty. */
  lemma PromptCarriesNote(db: Store, base: string, input: TurnInput)
    requires !LongToken(input.message)
    ensures TurnPrompt(db, base, input)
            == Done(Prompt(base, input.companyPolicy, UserContent(input.message, input.imageAnalysis, "")))
  {
  }

  /** With a client and a long candidate token, the outbound prompt ends
      with the note rendered for the resolver's verdict; in particular it
      ends in "Tx <token> NOT FOUND." exactly in the case the resolver
      reports an unknown reference in order-like language. */
  lemma PromptCarriesVerdictNote(db: Store, base: string, input: TurnInput)
    requires db.connected && LongToken(input.message)
    ensures Classify(db, input.message, input.company).Done?
    ensures TurnPrompt(db, base, input).Done?
    ensures EndsIn(TurnPrompt(db, base, input).value, Render(Classify(db, input.message, input.company).value))
    ensures var tok := Candidate(input.message).value;
      !Known(db, tok, input.company) && OrderLike(input.message) ==>
        EndsIn(TurnPrompt(db, base, input).value, "Tx " + tok + " " + NotFoundText)
  {
    var v := Classify(db, input.message, input.company).value;
    var note := Render(v);
    var user := UserContent(input.message, input.imageAnalysis, note);
    var prompt := TurnPrompt(db, base, input).value;
    assert EndsIn(prompt, user);
    assert EndsIn(user, note);
    EndsInTrans(prompt, user, note);
    ClassifyNotFound(db, input.message, input.company);
    if v.NotFound? {
      EndsInTrans(prompt, note, "Tx " + v.token + " " + NotFoundText);
    }
  }

  /** Only the first decision block matters: two parsers that agree on the
      first block's body yield the same turn, whatever they make of the rest
      of the reply. */
  lemma OnlyFirstBlockParsed(db: Store, stats: Stats.Stats, input: TurnInput, text: string,
                             parse1: string -> Option<Json>, parse2: string -> Option<Json>)
    requires FirstJsonBlock(Strip(text)).Some?
    requires parse1(FirstJsonBlock(Strip(text)).value) == parse2(FirstJsonBlock(Strip(text)).value)
    ensures Turn(db, stats, input, Replied(text), parse1) == Turn(db, stats, input, Replied(text), parse2)
  {
  }

  /** A reply without a decision block, or whose first block does not
      parse, writes nothing and counts an interaction with no decision. */
  lemma NoBlockNoDecision(db: Store, stats: Stats.Stats, input: TurnInput, text: string, parse: string -> Option<Json>)
    requires db.connected || !LongToken(input.message)
    requires Decision(Strip(text), parse).None?
    ensures Turn(db, stats, input, Replied(text), parse)
            == Done(TurnResult(Strip(text), db, Stats.Stats(stats.totalInteractions + 1, stats.aiResolved, stats.escalated)))
  {
    var transcript := Transcript(input.history, input.message, CleanReply(Strip(text)));
    assert Turn(db, stats, input, Replied(text), parse)
        == Done(TurnResult(Strip(text), Decide(db, None, transcript, input.evidence, input.customer), Stats.Update(stats, JNull))) by {
      TurnWithReply(db, stats, input, text, parse);
    }
    assert Decide(db, None, transcript, input.evidence, input.customer) == db by {
      NoWrites(db, None, transcript, input.evidence, input.customer);
    }
    Stats.UpdateWithoutDecision(stats, JNull);
  }

  /** Helper: the shape of a turn that got a reply and did not raise. */
  lemma TurnWithReply(db: Store, stats: Stats.Stats, input: TurnInput, text: string, parse: string -> Option<Json>)
    requires db.connected || !LongToken(input.message)
    ensures var parsed := Decision(Strip(text), parse);
      Turn(db, stats, input, Replied(text), parse)
        == Done(TurnResult(Strip(text),
                           Decide(db, parsed, Transcript(input.history, input.message, CleanReply(Strip(text))),
                                  input.evidence, input.customer),
                           Stats.Update(stats, ActionType(parsed))))
  {
    assert Classify(db, input.message, input.company).Done?;
  }

  /** A REFUND decision on a UUID-shaped id of a transaction with a company
      queues its payout, records the approved claim with the turn's
      transcript, and counts one more resolution. */
  lemma RefundTurn(db: Store, stats: Stats.Stats, input: TurnInput, text: string,
                   parse: string -> Option<Json>, m: map<string, Json>, t: Transaction)
    requires db.connected
    requires Decision(Strip(text), parse) == Some(JObj(m))
    requires Get(m, "action") == JStr("REFUND")
    requires Get(m, "transaction_id") == JStr(t.id) && UuidLike(t.id)
    requires TransactionsWithId(db, t.id) == [t] && t.companyId != ""
    ensures var r := Turn(db, stats, input, Replied(text), parse);
      && r.Done?
      && |r.value.db.payouts| == |db.payouts| + 1
      && r.value.db.payouts[|db.payouts|].amount == t.amount
      && |r.value.db.refunds| == |db.refunds| + 1
      && r.value.db.refunds[|db.refunds|].status == "APPROVED"
      && r.value.db.refunds[|db.refunds|].transcript
           == Some(Transcript(input.history, input.message, CleanReply(Strip(text))))
      && r.value.db.escalations == db.escalations
      && r.value.stats.aiResolved == stats.aiResolved + 1
  {
    UuidTargetKept(db, m, t.id);
    RefundWrites(db, m, Transcript(input.history, input.message, CleanReply(Strip(text))), input.evidence, input.customer);
  }

  /** The message of the worked example, "My item #AB12 arrived broken",
      produces no side note for any store: the first candidate is "My". */
  lemma ShortLeadingWordIsSilent(db: Store, company: string)
    ensures Classify(db, "My item #AB12 arrived broken", company) == Done(Silent)
  {
    CandidateOfShortLeadingWord();
  }
}

=== FILE: dashboard.dfy ===
/** The events the dashboard shows after a turn: one for the image
    analysis, when there was one, then one for the decision, when there was
    one. */
module Dashboard {
  import opened Wrappers
  import opened Text

  /** A dashboard card: its type, icon, title and subtitle. Titles and
      subtitles of decision events are copied from the decision object and
      may be any JSON value. */
  datatype Event = Event(kind: string, icon: string, title: Json, subtitle: Json)

  /** Does the analysis report a failure? */
  predicate AnalysisFailed(analysis: string)
  {
    Contains(analysis, "Failed")
  }

  /** The card for an image analysis: rejected when the analysis mentions
      a failure, completed otherwise. */
  function ImageEvent(analysis: string): (e: Event)
    ensures e.kind == "event" && e.title == JStr("Image Analysis")
    ensures e.icon == "block" <==> AnalysisFailed(analysis)
    ensures e.subtitle == JStr("Rejected") <==> AnalysisFailed(analysis)
    ensures !AnalysisFailed(analysis) ==> e.icon == "image" && e.subtitle == JStr("Completed")
  {
    if AnalysisFailed(analysis)
    then Event("event", "block", JStr("Image Analysis"), JStr("Rejected"))
    else Event("event", "image", JStr("Image Analysis"), JStr("Completed"))
  }

  /** The card for a decision object: its action and its reason, each
      `null` when absent. */
  function ActionEvent(action: map<string, Json>): (e: Event)
    ensures e.kind == "event" && e.icon == "receipt_long"
    ensures "action" in action ==> e.title == action["action"]
    ensures "action" !in action ==> e.title == JNull
    ensures "reason" in action ==> e.subtitle == action["reason"]
    ensures "reason" !in action ==> e.subtitle == JNull
  {
    Event("event", "receipt_long", Get(action, "action"), Get(action, "reason"))
  }

  /** `get_dashboard_update`: an empty `analysis` or `action` stands for
      a missing one, both being falsy. */
  function DashboardUpdate(action: map<string, Json>, analysis: string): (r: seq<Event>)
    ensures |r| == (if analysis != "" then 1 else 0) + (if |action| > 0 then 1 else 0)
    ensures analysis != "" ==> r[0] == ImageEvent(analysis)
    ensures |action| > 0 ==> r[|r| - 1] == ActionEvent(action)
  {
    var image := if analysis != "" then [ImageEvent(analysis)] else [];
    var decision := if |action| > 0 then [ActionEvent(action)] else [];
    image + decision
  }

  /** Every card is an event, and the image card is always the first: a
      card is an image card iff it sits at the front and an analysis was
      given. */
  lemma ImageCardFirst(action: map<string, Json>, analysis: string)
    ensures var r := DashboardUpdate(action, analysis);
      forall i :: 0 <= i < |r| ==>
        && r[i].kind == "event"
        && (r[i].title == JStr("Image Analysis") && r[i].icon != "receipt_long" <==> i == 0 && analysis != "")
  {
    var r := DashboardUpdate(action, analysis);
    forall i | 0 <= i < |r|
      ensures r[i].kind == "event"
      ensures r[i].title == JStr("Image Analysis") && r[i].icon != "receipt_long" <==> i == 0 && analysis != ""
    {
      if analysis != "" && i == 0 {
        assert r[i] == ImageEvent(analysis);
      } else {
        assert r[i] == ActionEvent(action);
      }
    }
  }

  /** An analysis mentioning a failure shows a rejected card; any other
      shows a completed one. */
  lemma FailedAnalysisRejected(action: map<string, Json>, analysis: string)
    requires analysis != ""
    ensures var r := DashboardUpdate(action, analysis);
      && (r[0].subtitle == JStr("Rejected") <==> AnalysisFailed(analysis))
      && (r[0].subtitle == JStr("Completed") <==> !AnalysisFailed(analysis))
  {
  }
}

=== FILE: dispatch.dfy ===
/** The store writes a parsed decision block causes: REFUND queues a payout
    and records an approved claim, ESCALATE records an escalated claim and
    opens an escalation, REJECT and everything unrecognised write nothing.
    Exceptions raised on the way are caught by the chat turn, so they end
    in "no write" here. */
module Dispatch {
  import opened Wrappers
  import opened Store
  import opened Resolver
  import opened Reply
  import opened Like

  /** The recognised decisions. */
  datatype Action = Refund | Escalate | Reject

  /** The decision an `"action"` value names, if it is one of the three. */
  function ActionNamed(j: Json): (a: Option<Action>)
    ensures a == Some(Refund) <==> j == JStr("REFUND")
    ensures a == Some(Escalate) <==> j == JStr("ESCALATE")
    ensures a == Some(Reject) <==> j == JStr("REJECT")
  {
    if j == JStr("REFUND") then Some(Refund)
    else if j == JStr("ESCALATE") then Some(Escalate)
    else if j == JStr("REJECT") then Some(Reject)
    else None
  }

  /** The action type the statistics see: the `"action"` entry of a parsed
      object, and `None` when parsing failed or produced something that is
      not an object (calling `.get` on it raises before the assignment). */
  function ActionType(parsed: Option<Json>): (r: Json)
    ensures (parsed.None? || !parsed.value.JObj?) ==> r == JNull
    ensures parsed.Some? && parsed.value.JObj? && "action" in parsed.value.fields ==> r == parsed.value.fields["action"]
  {
    match parsed
    case Some(JObj(m)) => Get(m, "action")
    case _ => JNull
  }

  /** `db_select("transactions", "id", tid)`: no rows without a client, all
      rows for an empty id (the filter is skipped), else the rows with that
      id. */
  function TransactionsWithId(db: Store, tid: string): (r: seq<Transaction>)
    ensures !db.connected ==> r == []
    ensures db.connected && tid != "" ==> forall t :: t in r <==> t in db.transactions && t.id == tid
  {
    if !db.connected then []
    else if tid == "" then db.transactions
    else FilterId(db.transactions, tid)
  }

  /** Helper: the transactions with id `tid`, in table order. */
  function FilterId(txs: seq<Transaction>, tid: string): (r: seq<Transaction>)
    ensures forall t :: t in r <==> t in txs && t.id == tid
    ensures |r| == 0 <==> forall k :: 0 <= k < |txs| ==> txs[k].id != tid
  {
    if |txs| == 0 then []
    else if txs[0].id == tid then [txs[0]] + FilterId(txs[1..], tid)
    else
      var r := FilterId(txs[1..], tid);
      assert forall k :: 0 < k < |txs| ==> txs[k] == txs[1..][k - 1];
      r
  }

  /** The row the writes read (amount, company) is the first transaction
      with that id in table order. */
  lemma {:induction false} FilterIdFirst(txs: seq<Transaction>, tid: string)
    requires |FilterId(txs, tid)| > 0
    ensures var r := FilterId(txs, tid);
      exists i :: 0 <= i < |txs| && txs[i] == r[0] && forall k :: 0 <= k < i ==> txs[k].id != tid
  {
    if txs[0].id == tid {
      assert txs[0] == FilterId(txs, tid)[0];
    } else {
      FilterIdFirst(txs[1..], tid);
      var i :| 0 <= i < |txs[1..]| && txs[1..][i] == FilterId(txs[1..], tid)[0]
               && forall k :: 0 <= k < i ==> txs[1..][k].id != tid;
      assert txs[i + 1] == FilterId(txs, tid)[0];
      forall k | 0 <= k < i + 1 ensures txs[k].id != tid {
        if k > 0 {
          assert txs[k] == txs[1..][k - 1];
        }
      }
    }
  }

  /** The transaction id the writes use. A falsy `transaction_id` means no
      write; a truthy non-string makes the UUID test raise; a string that
      does not look like a UUID is looked up as an order reference, without
      a company filter, and replaced by the id of the transaction found. */
  function ResolveTid(db: Store, tid: Json): (r: Outcome<Option<string>>)
    ensures !Truthy(tid) ==> r == Done(None)
    ensures Truthy(tid) && !tid.JStr? ==> r.Raised?
    ensures tid.JStr? && tid.s != "" && UuidLike(tid.s) ==> r == Done(Some(tid.s))
    ensures tid.JStr? && tid.s != "" && !UuidLike(tid.s) && !db.connected ==> r.Raised?
    ensures (&& tid.JStr? && tid.s != "" && !UuidLike(tid.s) && db.connected
             && forall t :: t in db.transactions ==> !TxMatches(t, Normalize(tid.s), "")) ==>
              r == Done(Some(tid.s))
    ensures (&& tid.JStr? && tid.s != "" && !UuidLike(tid.s) && db.connected
             && exists t :: t in db.transactions && TxMatches(t, Normalize(tid.s), "")) ==>
              || r == Done(None)
              || exists t :: t in db.transactions && TxMatches(t, Normalize(tid.s), "") && t.id != "" && r == Done(Some(t.id))
    ensures tid.JStr? && tid.s != "" && !UuidLike(tid.s) && r == Done(None) ==>
              exists t :: t in db.transactions && TxMatches(t, Normalize(tid.s), "") && t.id == ""
    ensures r.Done? && r.value.Some? ==>
              r.value.value != "" &&
              (r.value.value == tid.s ||
               exists t :: t in db.transactions && t.id == r.value.value && TxMatches(t, Normalize(tid.s), ""))
  {
    if !Truthy(tid) then Done(None)
    else if !tid.JStr? then Raised
    else if UuidLike(tid.s) then Done(Some(tid.s))
    else match VerifyTransaction(db, tid.s, "")
      case Raised => Raised
      case Done(None) => Done(Some(tid.s))
      case Done(Some(t)) => Done(if t.id != "" then Some(t.id) else None)
  }

  /** An order reference written where a transaction id belongs is looked
      up like a candidate token: with no transaction carrying it (up to
      case) it is kept as it is, and otherwise it is replaced by the id of a
      transaction that carries it; there is no target only when the
      transaction found has a NULL id. */
  lemma ResolveOrderRef(db: Store, tok: string)
    requires db.connected && tok != "" && !UuidLike(tok)
    requires forall k :: 0 <= k < |tok| ==> RefChar(tok[k])
    ensures !Known(db, tok, "") ==> ResolveTid(db, JStr(tok)) == Done(Some(tok))
    ensures Known(db, tok, "") ==>
              || ResolveTid(db, JStr(tok)) == Done(None)
              || exists t :: t in db.transactions && EqualCI(t.orderRef, tok) && t.id != ""
                             && ResolveTid(db, JStr(tok)) == Done(Some(t.id))
    ensures ResolveTid(db, JStr(tok)) == Done(None) ==>
              exists t :: t in db.transactions && EqualCI(t.orderRef, tok) && t.id == ""
    ensures (forall t :: t in db.transactions && EqualCI(t.orderRef, tok) ==> t.id != "") ==>
              ResolveTid(db, JStr(tok)).Done? && ResolveTid(db, JStr(tok)).value.Some?
  {
    TokenLookup(db, tok, "");
    NormalizeToken(tok);
    var v := VerifyTransaction(db, tok, "");
    assert Truthy(JStr(tok)) && v.Done?;
    if v.value.None? {
      assert ResolveTid(db, JStr(tok)) == Done(Some(tok));
    } else {
      var t := v.value.value;
      assert t in db.transactions && EqualCI(t.orderRef, tok);
      assert ResolveTid(db, JStr(tok)) == Done(if t.id != "" then Some(t.id) else None);
    }
  }

  /** When exactly one transaction carries the reference, the decision is
      applied to that transaction's id. */
  lemma UniqueOrderRefResolves(db: Store, tok: string, t: Transaction)
    requires db.connected && tok != "" && !UuidLike(tok)
    requires forall k :: 0 <= k < |tok| ==> RefChar(tok[k])
    requires t in db.transactions && EqualCI(t.orderRef, tok) && t.id != ""
    requires forall u :: u in db.transactions && EqualCI(u.orderRef, tok) ==> u == t
    ensures ResolveTid(db, JStr(tok)) == Done(Some(t.id))
  {
    ResolveOrderRef(db, tok);
    assert Known(db, tok, "");
  }

  /** The transaction id the decision object `m` leads to writes for, if
      any. */
  function Target(db: Store, m: map<string, Json>): (r: Option<string>)
    ensures !Truthy(Get(m, "transaction_id")) ==> r.None?
    ensures r.Some? ==> r.value != ""
    ensures Get(m, "transaction_id").JStr? && UuidLike(Get(m, "transaction_id").s) ==>
              r == Some(Get(m, "transaction_id").s)
  {
    match ResolveTid(db, Get(m, "transaction_id"))
    case Done(Some(t)) => Some(t)
    case _ => None
  }

  /** The writes for decision `a` on transaction `tid`, given the decision
      object `m` and the turn's transcript, evidence link and customer. */
  function Apply(db: Store, a: Action, tid: string, m: map<string, Json>,
                 transcript: string, evidence: Option<string>, customer: string): (r: Store)
    ensures Extends(db, r)
    ensures Valid(db) ==> Valid(r)
    ensures |r.refunds| <= |db.refunds| + 1 && |r.payouts| <= |db.payouts| + 1 && |r.escalations| <= |db.escalations| + 1
  {
    var rows := TransactionsWithId(db, tid);
    var cid := if |rows| > 0 then rows[0].companyId else "";
    match a
    case Reject => db
    case Refund =>
      var db1 := if |rows| > 0 then CreateRefundEntry(db, tid, cid, rows[0].amount) else db;
      if cid != "" then CreateClaim(db1, tid, cid, "APPROVED", GetOr(m, "reason", JStr("Approved by AI")), evidence, Some(transcript))
      else db1
    case Escalate =>
      var reason := Get(m, "reason");
      var db1 := if cid != "" then CreateClaim(db, tid, cid, "ESCALATED", reason, evidence, Some(transcript)) else db;
      CreateEscalationEntry(db1, tid, customer, reason)
  }

  /** The store after the decision block parsed as `parsed` (`None` when
      there was no block or it did not parse). */
  function Decide(db: Store, parsed: Option<Json>, transcript: string,
                    evidence: Option<string>, customer: string): (r: Store)
    ensures Extends(db, r)
    ensures Valid(db) ==> Valid(r)
    ensures |r.refunds| <= |db.refunds| + 1 && |r.payouts| <= |db.payouts| + 1 && |r.escalations| <= |db.escalations| + 1
  {
    match parsed
    case Some(JObj(m)) =>
      (match ActionNamed(Get(m, "action"))
       case None => db
       case Some(a) =>
         match Target(db, m)
         case None => db
         case Some(tid) => Apply(db, a, tid, m, transcript, evidence, customer))
    case _ => db
  }

  /** A failed parse, a non-object, an unrecognised action and REJECT all
      leave the store exactly as it was. */
  lemma NoWrites(db: Store, parsed: Option<Json>, transcript: string, evidence: Option<string>, customer: string)
    requires || parsed.None?
             || !parsed.value.JObj?
             || ActionNamed(Get(parsed.value.fields, "action")) !in {Some(Refund), Some(Escalate)}
    ensures Decide(db, parsed, transcript, evidence, customer) == db
  {
  }

  /** A REFUND for transaction `tid` queues exactly one READY_FOR_PAYOUT
      entry carrying that transaction's amount when the transaction row
      exists (and none otherwise), records exactly one APPROVED claim with
      the transcript when the transaction has a company, and opens no
      escalation. */
  lemma RefundWrites(db: Store, m: map<string, Json>, transcript: string, evidence: Option<string>, customer: string)
    requires db.connected
    requires Get(m, "action") == JStr("REFUND")
    requires Target(db, m).Some?
    ensures var tid := Target(db, m).value;
      var r := Decide(db, Some(JObj(m)), transcript, evidence, customer);
      var rows := TransactionsWithId(db, tid);
      && r.escalations == db.escalations
      && (|rows| == 0 ==> r.payouts == db.payouts && r.refunds == db.refunds)
      && (|rows| > 0 ==>
            && |r.payouts| == |db.payouts| + 1
            && r.payouts[|db.payouts|].transactionId == tid
            && r.payouts[|db.payouts|].amount == rows[0].amount
            && r.payouts[|db.payouts|].companyId == rows[0].companyId
            && r.payouts[|db.payouts|].status == "READY_FOR_PAYOUT"
            && (rows[0].companyId == "" ==> r.refunds == db.refunds)
            && (rows[0].companyId != "" ==>
                  && |r.refunds| == |db.refunds| + 1
                  && r.refunds[|db.refunds|].transactionId == tid
                  && r.refunds[|db.refunds|].companyId == rows[0].companyId
                  && r.refunds[|db.refunds|].status == "APPROVED"
                  && r.refunds[|db.refunds|].reason == GetOr(m, "reason", JStr("Approved by AI"))
                  && r.refunds[|db.refunds|].evidenceUrl == evidence
                  && r.refunds[|db.refunds|].transcript == Some(transcript)))
  {
    assert ActionNamed(Get(m, "action")) == Some(Refund);
  }

  /** An ESCALATE for transaction `tid` opens exactly one OPEN escalation
      for it. The engine makes no check of its own before that insert, so
      here, where inserts always succeed, this holds for an unknown
      transaction too. It records one ESCALATED claim only when the
      transaction has a company, and queues no payout. */
  lemma EscalateWrites(db: Store, m: map<string, Json>, transcript: string, evidence: Option<string>, customer: string)
    requires db.connected
    requires Get(m, "action") == JStr("ESCALATE")
    requires Target(db, m).Some?
    ensures var tid := Target(db, m).value;
      var r := Decide(db, Some(JObj(m)), transcript, evidence, customer);
      var rows := TransactionsWithId(db, tid);
      && r.payouts == db.payouts
      && |r.escalations| == |db.escalations| + 1
      && r.escalations[|db.escalations|].transactionId == tid
      && r.escalations[|db.escalations|].status == "OPEN"
      && r.escalations[|db.escalations|].reason == Get(m, "reason")
      && r.escalations[|db.escalations|].customerId == (if customer != "" then Some(customer) else None)
      && ((|rows| == 0 || rows[0].companyId == "") ==> r.refunds == db.refunds)
      && ((|rows| > 0 && rows[0].companyId != "") ==>
            && |r.refunds| == |db.refunds| + 1
            && r.refunds[|db.refunds|].transactionId == tid
            && r.refunds[|db.refunds|].companyId == rows[0].companyId
            && r.refunds[|db.refunds|].status == "ESCALATED"
            && r.refunds[|db.refunds|].reason == Get(m, "reason")
            && r.refunds[|db.refunds|].evidenceUrl == evidence
            && r.refunds[|db.refunds|].transcript == Some(transcript))
  {
    assert ActionNamed(Get(m, "action")) == Some(Escalate);
    assert "ESCALATE" != "REFUND";
  }

  /** A decision that names a transaction by its UUID-shaped id is applied
      to that id unchanged. */
  lemma UuidTargetKept(db: Store, m: map<string, Json>, tid: string)
    requires Get(m, "transaction_id") == JStr(tid) && UuidLike(tid)
    ensures Target(db, m) == Some(tid)
  {
  }

  /** Decisions without a truthy `transaction_id` write nothing. */
  lemma NoTargetNoWrites(db: Store, m: map<string, Json>, transcript: string, evidence: Option<string>, customer: string)
    requires !Truthy(Get(m, "transaction_id"))
    ensures Decide(db, Some(JObj(m)), transcript, evidence, customer) == db
  {
  }
}

=== FILE: like.dfy ===
/** The database's `ILIKE` filter as reached through the REST layer: `%`
    matches any run of characters, `*` is the REST layer's alias for `%`,
    `_` matches one character, a backslash makes the next character literal,
    and letters compare without regard to ASCII case. A pattern ending in a
    lone backslash is rejected by the database, which the callers turn into
    "no row"; here it simply matches nothing. */
module Like {
  import opened Text

  /** Does `s` match the ILIKE pattern `p`? A pattern made only of `%` and
      `*` matches every string, and without those two a match is never
      longer than the pattern. */
  predicate ILike(s: string, p: string)
    decreases |s| + |p|
    ensures (|p| > 0 && forall i :: 0 <= i < |p| ==> p[i] == '%' || p[i] == '*') ==> ILike(s, p)
    ensures (ILike(s, p) && forall i :: 0 <= i < |p| ==> p[i] != '%' && p[i] != '*') ==> |s| <= |p|
  {
    if |p| == 0 then |s| == 0
    else if p[0] == '%' || p[0] == '*' then ILike(s, p[1..]) || (|s| > 0 && ILike(s[1..], p))
    else if p[0] == '_' then |s| > 0 && ILike(s[1..], p[1..])
    else if p[0] == '\\' then |p| >= 2 && |s| > 0 && LowerChar(s[0]) == LowerChar(p[1]) && ILike(s[1..], p[2..])
    else |s| > 0 && LowerChar(s[0]) == LowerChar(p[0]) && ILike(s[1..], p[1..])
  }

  /** A character with a special meaning in an ILIKE pattern. */
  predicate Special(c: char)
  {
    c == '%' || c == '*' || c == '_' || c == '\\'
  }

  /** A pattern with no special character. */
  predicate Literal(p: string)
  {
    forall i :: 0 <= i < |p| ==> !Special(p[i])
  }

  /** Equal up to ASCII case. */
  predicate EqualCI(s: string, t: string)
  {
    |s| == |t| && forall i :: 0 <= i < |s| ==> LowerChar(s[i]) == LowerChar(t[i])
  }

  /** A literal pattern matches exactly the strings equal to it up to case. */
  lemma {:induction false} LiteralILike(s: string, p: string)
    requires Literal(p)
    ensures ILike(s, p) <==> EqualCI(s, p)
  {
    if |p| > 0 && |s| > 0 {
      LiteralILike(s[1..], p[1..]);
      if EqualCI(s, p) {
        assert EqualCI(s[1..], p[1..]) by {
          forall i | 0 <= i < |s| - 1 ensures LowerChar(s[1..][i]) == LowerChar(p[1..][i]) {
            assert s[1..][i] == s[i + 1] && p[1..][i] == p[i + 1];
          }
        }
      }
      if ILike(s, p) {
        forall i | 0 <= i < |s| ensures LowerChar(s[i]) == LowerChar(p[i]) {
          if i > 0 {
            assert s[1..][i - 1] == s[i] && p[1..][i - 1] == p[i];
          }
        }
      }
    }
  }

  /** A lone `%` matches every string. */
  lemma {:induction false} PercentMatchesAll(s: string)
    ensures ILike(s, "%")
  {
    if |s| > 0 {
      PercentMatchesAll(s[1..]);
    }
  }
}

=== FILE: pending.dfy ===
/** The back-office view of the claims still awaiting a human: a company's
    PENDING claims, the OPEN escalations on its transactions, and its
    payouts READY_FOR_PAYOUT, the latter two enriched with the context of
    the claim recorded for the same transaction. */
module Pending {
  import opened Wrappers
  import opened Store

  /** The rows of `s` that satisfy `keep`, in order. */
  function Filter<T(!new)>(s: seq<T>, keep: T -> bool): (r: seq<T>)
    ensures |r| <= |s|
    ensures forall x :: x in r <==> x in s && keep(x)
  {
    if |s| == 0 then []
    else (if keep(s[0]) then [s[0]] else []) + Filter(s[1..], keep)
  }

  /** The transaction an id column points to: the foreign key joins at most
      one row, and a NULL key joins none. */
  function Joined(txs: seq<Transaction>, tid: string): (r: Option<Transaction>)
    ensures r.Some? ==> r.value in txs && r.value.id == tid && tid != ""
    ensures r.None? ==> tid == "" || forall k :: 0 <= k < |txs| ==> txs[k].id != tid
  {
    if tid == "" || |txs| == 0 then None
    else if txs[0].id == tid then Some(txs[0])
    else
      var r := Joined(txs[1..], tid);
      assert forall k :: 0 < k < |txs| ==> txs[k] == txs[1..][k - 1];
      r
  }

  /** A company filter (`.eq("company_id", cid)`, or the comparison of the
      joined transaction's `company_id`): a NULL column never passes it, so
      an empty company id selects nothing. */
  predicate SameCompany(column: string, cid: string)
  {
    cid != "" && column == cid
  }

  /** Does the transaction `tid` joins belong to company `cid`? */
  predicate OfCompany(db: Store, tid: string, cid: string)
  {
    Joined(db.transactions, tid).Some? && SameCompany(Joined(db.transactions, tid).value.companyId, cid)
  }

  /** The index of the last claim row among the first `n` recorded for
      transaction `tid`. */
  function LastIndex(rows: seq<RefundRequest>, tid: string, n: nat): (r: Option<nat>)
    requires n <= |rows|
    ensures r.None? <==> forall k :: 0 <= k < n ==> rows[k].transactionId != tid
    ensures r.Some? ==> r.value < n && rows[r.value].transactionId == tid
                        && forall k :: r.value < k < n ==> rows[k].transactionId != tid
  {
    if n == 0 then None
    else if rows[n - 1].transactionId == tid then Some(n - 1)
    else LastIndex(rows, tid, n - 1)
  }

  /** The last claim row recorded for transaction `tid`: building a map
      keyed by transaction id keeps the last row per key. */
  function LastClaim(rows: seq<RefundRequest>, tid: string): (r: Option<RefundRequest>)
    ensures r.None? <==> forall k :: 0 <= k < |rows| ==> rows[k].transactionId != tid
    ensures r.Some? ==> exists i :: 0 <= i < |rows| && rows[i] == r.value && r.value.transactionId == tid
                                    && forall k :: i < k < |rows| ==> rows[k].transactionId != tid
  {
    match LastIndex(rows, tid, |rows|)
    case None => None
    case Some(i) => Some(rows[i])
  }

  /** The context shown next to a payout: transcript, the claim's reason and
      the evidence link. */
  datatype PayoutContext = PayoutContext(transcript: Option<string>, aiReason: Json, evidenceUrl: Option<string>)

  /** The context shown next to an escalation: transcript and evidence link. */
  datatype EscalationContext = EscalationContext(transcript: Option<string>, evidenceUrl: Option<string>)

  datatype PayoutView = PayoutView(entry: PayoutEntry, context: Option<PayoutContext>)
  datatype EscalationView = EscalationView(entry: Escalation, context: Option<EscalationContext>)

  /** The three lists of the pending view. */
  datatype PendingClaims = PendingClaims(
    refunds: seq<RefundRequest>,
    escalations: seq<EscalationView>,
    payouts: seq<PayoutView>)

  /** The claim a row of the queue is enriched from: none for a NULL
      transaction id, which no `IN` list matches. */
  function RelatedClaim(db: Store, tid: string): Option<RefundRequest>
  {
    if tid == "" then None else LastClaim(db.refunds, tid)
  }

  function PayoutWithContext(db: Store, p: PayoutEntry): (v: PayoutView)
    ensures v.entry == p
  {
    match RelatedClaim(db, p.transactionId)
    case None => PayoutView(p, None)
    case Some(c) => PayoutView(p, Some(PayoutContext(c.transcript, c.reason, c.evidenceUrl)))
  }

  function EscalationWithContext(db: Store, e: Escalation): (v: EscalationView)
    ensures v.entry == e
  {
    match RelatedClaim(db, e.transactionId)
    case None => EscalationView(e, None)
    case Some(c) => EscalationView(e, Some(EscalationContext(c.transcript, c.evidenceUrl)))
  }

  /** A company's claims awaiting review. */
  function PendingRefunds(db: Store, cid: string): (r: seq<RefundRequest>)
    ensures forall x :: x in r <==> x in db.refunds && SameCompany(x.companyId, cid) && x.status == "PENDING"
  {
    Filter(db.refunds, (x: RefundRequest) => SameCompany(x.companyId, cid) && x.status == "PENDING")
  }

  /** The open escalations whose transaction belongs to the company. */
  function OpenEscalations(db: Store, cid: string): (r: seq<Escalation>)
    ensures forall e :: e in r <==> e in db.escalations && e.status == "OPEN" && OfCompany(db, e.transactionId, cid)
  {
    Filter(db.escalations, (e: Escalation) => e.status == "OPEN" && OfCompany(db, e.transactionId, cid))
  }

  /** A company's payouts ready to be paid. */
  function ReadyPayouts(db: Store, cid: string): (r: seq<PayoutEntry>)
    ensures forall p :: p in r <==> p in db.payouts && SameCompany(p.companyId, cid) && p.status == "READY_FOR_PAYOUT"
  {
    Filter(db.payouts, (p: PayoutEntry) => SameCompany(p.companyId, cid) && p.status == "READY_FOR_PAYOUT")
  }

  /** `get_pending_claims`: `None` (an empty result) without a client. */
  function GetPendingClaims(db: Store, cid: string): (r: Option<PendingClaims>)
    ensures r.None? <==> !db.connected
    ensures r.Some? ==>
              && |r.value.refunds| <= |db.refunds|
              && |r.value.escalations| <= |db.escalations|
              && |r.value.payouts| <= |db.payouts|
  {
    if !db.connected then None
    else
      var es := OpenEscalations(db, cid);
      var ps := ReadyPayouts(db, cid);
      Some(PendingClaims(
        PendingRefunds(db, cid),
        seq(|es|, i requires 0 <= i < |es| => EscalationWithContext(db, es[i])),
        seq(|ps|, i requires 0 <= i < |ps| => PayoutWithContext(db, ps[i]))))
  }

  /** The pending lists hold exactly the rows their filters describe: a
      claim is listed iff it is the company's and PENDING, an escalation iff
      it is OPEN and its transaction is the company's, a payout iff it is
      the company's and READY_FOR_PAYOUT. */
  lemma PendingMembership(db: Store, cid: string)
    requires db.connected
    ensures var p := GetPendingClaims(db, cid).value;
      && (forall x :: x in p.refunds <==> x in db.refunds && SameCompany(x.companyId, cid) && x.status == "PENDING")
      && (forall e :: (e in db.escalations && e.status == "OPEN" && OfCompany(db, e.transactionId, cid))
                         ==> exists i :: 0 <= i < |p.escalations| && p.escalations[i].entry == e)
      && (forall i :: 0 <= i < |p.escalations| ==>
            p.escalations[i].entry in db.escalations && p.escalations[i].entry.status == "OPEN"
            && OfCompany(db, p.escalations[i].entry.transactionId, cid))
      && (forall q :: (q in db.payouts && SameCompany(q.companyId, cid) && q.status == "READY_FOR_PAYOUT")
                         ==> exists i :: 0 <= i < |p.payouts| && p.payouts[i].entry == q)
      && (forall i :: 0 <= i < |p.payouts| ==>
            p.payouts[i].entry in db.payouts && SameCompany(p.payouts[i].entry.companyId, cid)
            && p.payouts[i].entry.status == "READY_FOR_PAYOUT")
  {
    var p := GetPendingClaims(db, cid).value;
    var es := OpenEscalations(db, cid);
    var ps := ReadyPayouts(db, cid);
    forall e | e in db.escalations && e.status == "OPEN" && OfCompany(db, e.transactionId, cid)
      ensures exists i :: 0 <= i < |p.escalations| && p.escalations[i].entry == e
    {
      var i :| 0 <= i < |es| && es[i] == e;
      assert p.escalations[i].entry == e;
    }
    forall q | q in db.payouts && SameCompany(q.companyId, cid) && q.status == "READY_FOR_PAYOUT"
      ensures exists i :: 0 <= i < |p.payouts| && p.payouts[i].entry == q
    {
      var i :| 0 <= i < |ps| && ps[i] == q;
      assert p.payouts[i].entry == q;
    }
    forall i | 0 <= i < |p.escalations| ensures p.escalations[i].entry in es {
      assert p.escalations[i].entry == es[i];
    }
    forall i | 0 <= i < |p.payouts| ensures p.payouts[i].entry in ps {
      assert p.payouts[i].entry == ps[i];
    }
  }

  /** A listed payout carries context iff some claim was recorded for its
      (non-NULL) transaction, and the context is that of the last such
      claim: transcript, reason and evidence link. */
  lemma PayoutContextFromLastClaim(db: Store, cid: string, i: nat)
    requires db.connected
    requires i < |GetPendingClaims(db, cid).value.payouts|
    ensures var v := GetPendingClaims(db, cid).value.payouts[i];
      var tid := v.entry.transactionId;
      && (v.context.None? <==> tid == "" || forall k :: 0 <= k < |db.refunds| ==> db.refunds[k].transactionId != tid)
      && (v.context.Some? ==>
            exists j :: 0 <= j < |db.refunds| && db.refunds[j].transactionId == tid
                        && v.context.value == PayoutContext(db.refunds[j].transcript, db.refunds[j].reason, db.refunds[j].evidenceUrl)
                        && forall k :: j < k < |db.refunds| ==> db.refunds[k].transactionId != tid)
  {
    var ps := ReadyPayouts(db, cid);
    assert GetPendingClaims(db, cid).value.payouts[i] == PayoutWithContext(db, ps[i]);
  }

  /** A listed escalation carries context iff some claim was recorded for
      its (non-NULL) transaction, and the context is the last such claim's
      transcript and evidence link. */
  lemma EscalationContextFromLastClaim(db: Store, cid: string, i: nat)
    requires db.connected
    requires i < |GetPendingClaims(db, cid).value.escalations|
    ensures var v := GetPendingClaims(db, cid).value.escalations[i];
      var tid := v.entry.transactionId;
      && (v.context.None? <==> tid == "" || forall k :: 0 <= k < |db.refunds| ==> db.refunds[k].transactionId != tid)
      && (v.context.Some? ==>
            exists j :: 0 <= j < |db.refunds| && db.refunds[j].transactionId == tid
                        && v.context.value == EscalationContext(db.refunds[j].transcript, db.refunds[j].evidenceUrl)
                        && forall k :: j < k < |db.refunds| ==> db.refunds[k].transactionId != tid)
  {
    var es := OpenEscalations(db, cid);
    assert GetPendingClaims(db, cid).value.escalations[i] == EscalationWithContext(db, es[i]);
  }

  /** Without a company id nothing is listed: the filters never match a
      NULL column. */
  lemma NoCompanyNothingPending(db: Store)
    requires db.connected
    ensures var p := GetPendingClaims(db, "").value;
      p.refunds == [] && p.escalations == [] && p.payouts == []
  {
    FilterNone(db.refunds, (x: RefundRequest) => SameCompany(x.companyId, "") && x.status == "PENDING");
    FilterNone(db.escalations, (e: Escalation) => e.status == "OPEN" && OfCompany(db, e.transactionId, ""));
    FilterNone(db.payouts, (p: PayoutEntry) => SameCompany(p.companyId, "") && p.status == "READY_FOR_PAYOUT");
  }

  /** Helper: a filter no row passes keeps nothing. */
  lemma {:induction false} FilterNone<T(!new)>(s: seq<T>, keep: T -> bool)
    requires forall i :: 0 <= i < |s| ==> !keep(s[i])
    ensures Filter(s, keep) == []
  {
    if |s| > 0 {
      FilterNone(s[1..], keep);
    }
  }

  /** The payout a REFUND queues for a transaction of company `cid` shows up
      in that company's payout queue (a NULL company's payout shows up in
      none). */
  lemma QueuedPayoutIsPending(db: Store, tid: string, cid: string, amount: int)
    requires db.connected && cid != ""
    ensures var r := CreateRefundEntry(db, tid, cid, amount);
      exists i :: 0 <= i < |GetPendingClaims(r, cid).value.payouts|
                  && GetPendingClaims(r, cid).value.payouts[i].entry == r.payouts[|db.payouts|]
  {
    var r := CreateRefundEntry(db, tid, cid, amount);
    PendingMembership(r, cid);
    assert r.payouts[|db.payouts|] in r.payouts;
  }

  /** Once a payout is moved out of READY_FOR_PAYOUT it leaves every
      company's queue. */
  lemma FinalizedPayoutLeavesQueue(db: Store, id: nat, status: string, clear: bool, cid: string)
    requires db.connected
    requires status != "READY_FOR_PAYOUT"
    ensures var u := UpdateClaimStatus(db, "company_refund_queue", id, status, clear);
      forall i :: 0 <= i < |GetPendingClaims(u.db, cid).value.payouts| ==>
        GetPendingClaims(u.db, cid).value.payouts[i].entry.id != id
  {
    var u := UpdateClaimStatus(db, "company_refund_queue", id, status, clear);
    UpdateSetsStatusOnlyThere(db, "company_refund_queue", id, status, clear);
    PendingMembership(u.db, cid);
  }
}

=== FILE: policy.dfy ===
/** Policy refinement: a supervisor's correction is turned into a new return
    policy by the language model, which is stored for the company and
    returned; on any failure the current policy is returned and nothing is
    stored. */
module Policy {
  import opened Wrappers
  import opened Text
  import opened Store

  /** What the language model gave back: no client configured, a failure
      (an exception, or a reply without text), or the reply text. */
  datatype Completion = NoClient | Failed | Completed(text: string)

  /** The stored state and the policy text handed back to the caller. */
  datatype Refined = Refined(db: Store, policy: string)

  const PolicyLabel: string := "\n        Current Policy: "
  const ContextLabel: string := "\n        Issue Context: "
  const FeedbackLabel: string := "\n        Feedback: "
  const Instruction: string :=
    "\n        \n        TASK: Rewrite policy to incorporate feedback. Keep it professional. Output NEW POLICY text only.\n        "

  /** The prompt sent to the model: the current policy, the issue and the
      feedback after their labels on their own indented lines, then the
      rewriting instruction. */
  function RefinementPrompt(current: string, context: string, feedback: string): (r: string)
    ensures IsAt(r, current, |PolicyLabel|)
    ensures IsAt(r, context, |PolicyLabel| + |current| + |ContextLabel|)
    ensures IsAt(r, feedback, |PolicyLabel| + |current| + |ContextLabel| + |context| + |FeedbackLabel|)
  {
    CurrentAt(current, context, feedback);
    ContextAt(current, context, feedback);
    FeedbackAt(current, context, feedback);
    Layout(current, context, feedback)
  }

  /** Helper: the prompt's parts, in order. */
  function Layout(current: string, context: string, feedback: string): string
  {
    PolicyLabel + current + ContextLabel + context + FeedbackLabel + feedback + Instruction
  }

  /** Helper: where the current policy sits in the prompt. */
  lemma CurrentAt(current: string, context: string, feedback: string)
    ensures IsAt(Layout(current, context, feedback), current, |PolicyLabel|)
  {
    var s1 := PolicyLabel + current;
    var s2 := s1 + ContextLabel;
    var s3 := s2 + context;
    var s4 := s3 + FeedbackLabel;
    var s5 := s4 + feedback;
    IsAtEnd(PolicyLabel, current);
    IsAtExtend(s1, current, |PolicyLabel|, ContextLabel);
    IsAtExtend(s2, current, |PolicyLabel|, context);
    IsAtExtend(s3, current, |PolicyLabel|, FeedbackLabel);
    IsAtExtend(s4, current, |PolicyLabel|, feedback);
    IsAtExtend(s5, current, |PolicyLabel|, Instruction);
  }

  /** Helper: where the issue context sits in the prompt. */
  lemma ContextAt(current: string, context: string, feedback: string)
    ensures IsAt(Layout(current, context, feedback), context, |PolicyLabel| + |current| + |ContextLabel|)
  {
    var s2 := PolicyLabel + current + ContextLabel;
    var s3 := s2 + context;
    var s4 := s3 + FeedbackLabel;
    var s5 := s4 + feedback;
    IsAtEnd(s2, context);
    IsAtExtend(s3, context, |s2|, FeedbackLabel);
    IsAtExtend(s4, context, |s2|, feedback);
    IsAtExtend(s5, context, |s2|, Instruction);
  }

  /** Helper: where the feedback sits in the prompt. */
  lemma FeedbackAt(current: string, context: string, feedback: string)
    ensures IsAt(Layout(current, context, feedback), feedback,
                 |PolicyLabel| + |current| + |ContextLabel| + |context| + |FeedbackLabel|)
  {
    var s4 := PolicyLabel + current + ContextLabel + context + FeedbackLabel;
    var s5 := s4 + feedback;
    IsAtEnd(s4, feedback);
    IsAtExtend(s5, feedback, |s4|, Instruction);
  }

  /** The policy stored for company `cid`: that of the first company row
      with that id, if there is one. */
  function PolicyOf(db: Store, cid: string): (r: Option<string>)
    ensures r.Some? ==> exists i :: 0 <= i < |db.companies| && db.companies[i].id == cid && db.companies[i].returnPolicy == r.value
    ensures r.None? <==> forall i :: 0 <= i < |db.companies| ==> db.companies[i].id != cid
  {
    FirstPolicy(db.companies, cid)
  }

  /** Helper: the policy of the first company with id `cid`. */
  function FirstPolicy(cs: seq<Company>, cid: string): (r: Option<string>)
    ensures r.Some? ==> exists i :: 0 <= i < |cs| && cs[i].id == cid && cs[i].returnPolicy == r.value
    ensures r.None? <==> forall i :: 0 <= i < |cs| ==> cs[i].id != cid
  {
    if |cs| == 0 then None
    else if cs[0].id == cid then Some(cs[0].returnPolicy)
    else
      var r := FirstPolicy(cs[1..], cid);
      assert forall i :: 0 < i < |cs| ==> cs[i] == cs[1..][i - 1];
      r
  }

  /** `refine_policy_with_gemini`: on a completion, the stripped text is
      stored as the company's policy and returned; otherwise the current
      policy is returned and the store is untouched. */
  function RefinePolicy(db: Store, cid: string, current: string, completion: Completion): (r: Refined)
    ensures !completion.Completed? ==> r == Refined(db, current)
    ensures completion.Completed? ==> r.policy == Strip(completion.text)
    ensures r.db.refunds == db.refunds && r.db.payouts == db.payouts && r.db.escalations == db.escalations
    ensures r.db.transactions == db.transactions && |r.db.companies| == |db.companies|
  {
    match completion
    case Completed(text) =>
      var policy := Strip(text);
      Refined(UpdateCompanyPolicy(db, cid, policy), policy)
    case _ => Refined(db, current)
  }

  /** After a successful refinement on a connected store, the policy the
      next chat turn reads for the company is exactly the one returned, and
      every other company keeps its policy. */
  lemma RefinedPolicyIsStored(db: Store, cid: string, current: string, text: string)
    requires db.connected
    requires PolicyOf(db, cid).Some?
    ensures var r := RefinePolicy(db, cid, current, Completed(text));
      && PolicyOf(r.db, cid) == Some(r.policy)
      && forall i :: 0 <= i < |db.companies| && db.companies[i].id != cid ==> r.db.companies[i] == db.companies[i]
  {
    PolicyAfterUpdate(db, cid, Strip(text));
  }

  /** Helper: after the update, the company's policy reads back as the one
      written. */
  lemma PolicyAfterUpdate(db: Store, cid: string, policy: string)
    requires db.connected
    requires PolicyOf(db, cid).Some?
    ensures PolicyOf(UpdateCompanyPolicy(db, cid, policy), cid) == Some(policy)
  {
    var u := UpdateCompanyPolicy(db, cid, policy);
    var k :| 0 <= k < |db.companies| && db.companies[k].id == cid;
    assert u.companies[k].id == cid;
  }

  /** Refining twice with the same completion stores the same as refining
      once. */
  lemma RefineIdempotent(db: Store, cid: string, current: string, completion: Completion)
    ensures var r := RefinePolicy(db, cid, current, completion);
      RefinePolicy(r.db, cid, r.policy, completion) == r
  {
    var r := RefinePolicy(db, cid, current, completion);
    if completion.Completed? && db.connected {
      var s := RefinePolicy(r.db, cid, r.policy, completion);
      assert s.db.companies == r.db.companies;
    }
  }
}

=== FILE: reply.dfy ===
/** Post-processing of the assistant's reply: removal of fenced ```json
    blocks and of a bare trailing decision object, the transcript stored
    with a claim, the first fenced block that carries the decision, and the
    test for an id that already looks like a UUID. */
module Reply {
  import opened Wrappers
  import opened Text

  /** A fence followed by `json` in any case (`re.IGNORECASE`) starts at `p`. */
  predicate OpenerAt(s: string, p: nat)
  {
    p + 7 <= |s| && s[p..p + 3] == Fence && ReMatchesCI(s[p + 3..p + 7], "json")
  }

  /** The end of the match of ```` ```json[\s\S]*?``` ```` starting at `p`:
      the lazy body stops at the first fence after the opener. */
  function BlockEnd(s: string, p: nat): (e: Option<nat>)
    ensures e.Some? ==> OpenerAt(s, p) && p + 10 <= e.value <= |s|
  {
    if !OpenerAt(s, p) then None
    else match IndexFrom(s, Fence, p + 7)
      case None => None
      case Some(k) => Some(k + 3)
  }

  /** A block runs from an opener to the first fence after it, and there
      is none exactly when the opener is missing or no fence follows it. */
  lemma BlockEndMeans(s: string, p: nat)
    ensures var e := BlockEnd(s, p);
      && (e.Some? ==> IsAt(s, Fence, e.value - 3) && forall k: nat :: p + 7 <= k < e.value - 3 ==> !IsAt(s, Fence, k))
      && (e.None? <==> !OpenerAt(s, p) || forall k: nat :: p + 7 <= k ==> !IsAt(s, Fence, k))
  {
  }

  /** `re.sub` of the block pattern with "" over `s[p..]`: scanning left to
      right, each match is dropped and scanning resumes after it. */
  function RemoveBlocksFrom(s: string, p: nat): (r: string)
    requires p <= |s|
    decreases |s| - p
    ensures |r| <= |s| - p
  {
    if p == |s| then ""
    else match BlockEnd(s, p)
      case Some(e) => RemoveBlocksFrom(s, e)
      case None => [s[p]] + RemoveBlocksFrom(s, p + 1)
  }

  /** Every ```json block removed from the reply. */
  function RemoveJsonBlocks(s: string): (r: string)
    ensures |r| <= |s|
  {
    RemoveBlocksFrom(s, 0)
  }

  /** Without a complete block from `p` on, nothing is removed. */
  lemma {:induction false} NoBlockKeepsText(s: string, p: nat)
    requires p <= |s|
    requires forall k: nat :: p <= k ==> BlockEnd(s, k).None?
    ensures RemoveBlocksFrom(s, p) == s[p..]
    decreases |s| - p
  {
    if p < |s| {
      NoBlockKeepsText(s, p + 1);
      assert s[p..] == [s[p]] + s[p + 1..];
    }
  }

  /** Text before the first block from `p` on is kept as it is, the block
      is dropped, and removal resumes after it. */
  lemma {:induction false} KeepsTextBeforeBlock(s: string, p: nat, b: nat)
    requires p <= b < |s| && BlockEnd(s, b).Some?
    requires forall k: nat :: p <= k < b ==> BlockEnd(s, k).None?
    ensures RemoveBlocksFrom(s, p) == s[p..b] + RemoveBlocksFrom(s, BlockEnd(s, b).value)
    decreases b - p
  {
    var rest := RemoveBlocksFrom(s, BlockEnd(s, b).value);
    if p < b {
      KeepsTextBeforeBlock(s, p + 1, b);
      KeepsOne(s, p);
      ConsSlice(s, p, b, rest);
    }
  }

  /** Helper: a position where no block starts keeps its character. */
  lemma KeepsOne(s: string, p: nat)
    requires p < |s| && BlockEnd(s, p).None?
    ensures RemoveBlocksFrom(s, p) == [s[p]] + RemoveBlocksFrom(s, p + 1)
  {
  }

  /** Helper: a character in front of the following slice extends it. */
  lemma ConsSlice(s: string, p: nat, b: nat, rest: string)
    requires p < b <= |s|
    ensures [s[p]] + (s[p + 1..b] + rest) == s[p..b] + rest
  {
    assert s[p..b] == [s[p]] + s[p + 1..b];
  }

  /** The position of the first complete block at or after `p`. */
  function FirstBlockFrom(s: string, p: nat): (r: Option<nat>)
    decreases |s| - p
    ensures r.Some? ==> p <= r.value < |s| && BlockEnd(s, r.value).Some?
    ensures r.Some? ==> forall k: nat :: p <= k < r.value ==> BlockEnd(s, k).None?
    ensures r.None? ==> forall k: nat :: p <= k ==> BlockEnd(s, k).None?
  {
    if p >= |s| then None
    else if BlockEnd(s, p).Some? then Some(p)
    else FirstBlockFrom(s, p + 1)
  }

  /** `re.search(r"```json([\s\S]*?)```", reply, re.IGNORECASE).group(1)`:
      the body of the first block, the only text handed to the JSON parser. */
  function FirstJsonBlock(s: string): (r: Option<string>)
    ensures r.None? <==> forall k: nat :: BlockEnd(s, k).None?
    ensures r.Some? ==> exists p: nat :: p < |s| && BlockEnd(s, p).Some?
                          && r.value == s[p + 7..BlockEnd(s, p).value - 3]
                          && forall k: nat :: k < p ==> BlockEnd(s, k).None?
  {
    match FirstBlockFrom(s, 0)
    case None => None
    case Some(p) => Some(s[p + 7..BlockEnd(s, p).value - 3])
  }

  /** A reply without a complete block is kept whole. */
  lemma NoBlockNoRemoval(s: string)
    requires FirstJsonBlock(s).None?
    ensures RemoveJsonBlocks(s) == s
  {
    NoBlockKeepsText(s, 0);
  }

  /** With a block, the text in front of the first block survives verbatim
      and the reply loses at least the ten characters of the two fences and
      the `json` tag. */
  lemma FirstBlockRemoved(s: string)
    requires FirstBlockFrom(s, 0).Some?
    ensures var p := FirstBlockFrom(s, 0).value;
      && |RemoveJsonBlocks(s)| >= p
      && RemoveJsonBlocks(s)[..p] == s[..p]
      && |RemoveJsonBlocks(s)| <= |s| - 10
  {
    var p := FirstBlockFrom(s, 0).value;
    var e := BlockEnd(s, p).value;
    KeepsTextBeforeBlock(s, 0, p);
    var rest := RemoveBlocksFrom(s, e);
    assert RemoveJsonBlocks(s) == s[0..p] + rest;
    assert s[0..p] == s[..p];
  }

  /** The key the bare-object fallback looks for, quotes included. */
  const ActionKey: string := "\"action\""

  /** The last `}` of `s`. */
  function LastClose(s: string): (r: Option<nat>)
    ensures r.Some? ==> r.value < |s| && s[r.value] == '}' && forall k :: r.value < k < |s| ==> s[k] != '}'
    ensures r.None? ==> forall k :: 0 <= k < |s| ==> s[k] != '}'
  {
    if |s| == 0 then None
    else if s[|s| - 1] == '}' then Some(|s| - 1)
    else LastClose(s[..|s| - 1])
  }

  /** The greedy pattern `\{[\s\S]*"action"[\s\S]*\}` matches at `p` when
      `p` holds `{` and a quoted `"action"` lies after it and before the
      last `}` of the text; the match then runs to that last `}`. */
  predicate BareMatchAt(s: string, p: nat, last: nat)
  {
    p < |s| && s[p] == '{'
    && match IndexFrom(s, ActionKey, p + 1)
       case None => false
       case Some(i) => i + |ActionKey| <= last
  }

  /** The bare-match test in words: some `"action"` lies strictly between
      `p` and the last `}`. */
  lemma BareMatchAtMeans(s: string, p: nat, last: nat)
    ensures BareMatchAt(s, p, last) <==>
              p < |s| && s[p] == '{' && exists i: nat :: p < i && i + |ActionKey| <= last && IsAt(s, ActionKey, i)
  {
    if p < |s| && s[p] == '{' && IndexFrom(s, ActionKey, p + 1).None? {
      assert forall i: nat :: p < i ==> !IsAt(s, ActionKey, i);
    }
  }

  /** The leftmost start of a bare match at or after `p`. */
  function FirstBareFrom(s: string, p: nat, last: nat): (r: Option<nat>)
    decreases |s| - p
    ensures r.Some? ==> p <= r.value && BareMatchAt(s, r.value, last)
    ensures r.Some? ==> forall k: nat :: p <= k < r.value ==> !BareMatchAt(s, k, last)
    ensures r.None? ==> forall k: nat :: p <= k ==> !BareMatchAt(s, k, last)
  {
    if p >= |s| then None
    else if BareMatchAt(s, p, last) then Some(p)
    else FirstBareFrom(s, p + 1, last)
  }

  /** `re.sub(r'\{[\s\S]*"action"[\s\S]*\}', "", s)`: the one greedy match,
      which ends at the last `}` so that no second match can follow, is cut
      out; text without such a match is returned unchanged. */
  function StripBareAction(s: string): (r: string)
    ensures |r| <= |s|
    ensures LastClose(s).None? ==> r == s
    ensures LastClose(s).Some? ==>
              var last := LastClose(s).value;
              match FirstBareFrom(s, 0, last)
              case None => r == s
              case Some(p) => r == s[..p] + s[last + 1..] && s[p] == '{' && p < last
  {
    match LastClose(s)
    case None => s
    case Some(last) =>
      match FirstBareFrom(s, 0, last)
      case None => s
      case Some(p) => s[..p] + s[last + 1..]
  }

  /** A text without the quoted key `"action"` keeps its braces. */
  lemma BareStripNeedsActionKey(s: string)
    requires !Contains(s, ActionKey)
    ensures StripBareAction(s) == s
  {
    IndexFromContains(s, ActionKey);
    if LastClose(s).Some? {
      var last := LastClose(s).value;
      forall k: nat ensures !BareMatchAt(s, k, last) {
        assert IndexFrom(s, ActionKey, k + 1).None?;
      }
    }
  }

  /** The user-visible reply as stored in the transcript: blocks removed
      and stripped; and, only when the raw reply has no fence at all, a
      bare decision object removed too and the rest stripped again. */
  function CleanReply(reply: string): (r: string)
    ensures |r| <= |reply|
    ensures Stripped(r)
    ensures Contains(reply, Fence) ==> r == Strip(RemoveJsonBlocks(reply))
    ensures !Contains(reply, Fence) ==> r == Strip(StripBareAction(Strip(reply)))
  {
    var c := Strip(RemoveJsonBlocks(reply));
    if Contains(reply, Fence) then c
    else
      NoFenceNoBlock(reply);
      Strip(StripBareAction(c))
  }

  /** Helper: a reply without any fence has no block to remove. */
  lemma NoFenceNoBlock(reply: string)
    requires !Contains(reply, Fence)
    ensures RemoveJsonBlocks(reply) == reply
  {
    forall k: nat ensures BlockEnd(reply, k).None? {
      if OpenerAt(reply, k) {
        assert IsAt(reply, Fence, k);
      }
    }
    NoBlockKeepsText(reply, 0);
  }

  /** One turn of the chat history as the client sends it. */
  datatype HistoryEntry = HistoryEntry(role: string, content: string)

  /** `f"{h['role']}: {h['content']}"`. */
  function EntryLine(h: HistoryEntry): string
  {
    h.role + ": " + h.content
  }

  /** The two-character separator `\n` (a backslash and an `n`) the
      transcript puts between history entries. */
  const LiteralNewline: string := "\\n"

  /** `"\\n".join(lines)`. */
  function JoinLines(lines: seq<string>): string
  {
    if |lines| == 0 then ""
    else if |lines| == 1 then lines[0]
    else lines[0] + LiteralNewline + JoinLines(lines[1..])
  }

  /** A join is built line by line: one line joins to itself, and each
      further line is added after the two-character separator. */
  lemma {:induction false} JoinLinesAppend(lines: seq<string>, y: string)
    ensures JoinLines([y]) == y
    ensures |lines| > 0 ==> JoinLines(lines + [y]) == JoinLines(lines) + ['\\', 'n'] + y
  {
    if |lines| > 0 {
      assert (lines + [y])[0] == lines[0];
      if |lines| == 1 {
        assert (lines + [y])[1..] == [y];
      } else {
        assert (lines + [y])[1..] == lines[1..] + [y];
        JoinLinesAppend(lines[1..], y);
      }
    }
  }

  /** `history[-3:]`. */
  function LastThree(history: seq<HistoryEntry>): (r: seq<HistoryEntry>)
    ensures |r| == if |history| < 3 then |history| else 3
    ensures r == history[|history| - |r|..]
  {
    if |history| <= 3 then history else history[|history| - 3..]
  }

  /** The lines of the kept history entries. */
  function HistoryLines(history: seq<HistoryEntry>): (r: seq<string>)
    ensures |r| == |history|
    ensures forall i :: 0 <= i < |r| ==> r[i] == EntryLine(history[i])
  {
    if |history| == 0 then [] else [EntryLine(history[0])] + HistoryLines(history[1..])
  }

  /** The transcript stored with a claim: the last three history entries
      joined by a literal backslash-n, then the current exchange, whose two
      lines are separated by a real newline. */
  function Transcript(history: seq<HistoryEntry>, message: string, clean: string): (r: string)
    ensures var x := "User: " + message + "\nAI: " + clean;
      && |x| <= |r| && r[|r| - |x|..] == x
      && (r == x <==> |history| == 0)
      && (|history| > 0 ==> r == JoinLines(HistoryLines(LastThree(history))) + "\\n" + x)
  {
    var exchange := "User: " + message + "\nAI: " + clean;
    if |history| == 0 then exchange
    else
      var front := JoinLines(HistoryLines(LastThree(history))) + LiteralNewline;
      EndsWith(front, exchange);
      front + exchange
  }

  /** The transcript always ends with the cleaned reply after `AI: `. */
  lemma TranscriptEndsWithReply(history: seq<HistoryEntry>, message: string, clean: string)
    ensures var t := Transcript(history, message, clean);
      var tail := "\nAI: " + clean;
      |tail| <= |t| && t[|t| - |tail|..] == tail
  {
    var tail := "\nAI: " + clean;
    var exchange := "User: " + message + "\nAI: " + clean;
    assert exchange == ("User: " + message) + tail;
    EndsWith("User: " + message, tail);
    if |history| > 0 {
      var t := Transcript(history, message, clean);
      assert t == (JoinLines(HistoryLines(LastThree(history))) + LiteralNewline) + exchange;
      EndsWith(JoinLines(HistoryLines(LastThree(history))) + LiteralNewline, exchange);
    }
  }

  /** With any history, the transcript starts with the line of the oldest
      of the last three entries. */
  lemma TranscriptStartsWithOldest(history: seq<HistoryEntry>, message: string, clean: string)
    requires |history| > 0
    ensures var first := EntryLine(LastThree(history)[0]);
      var t := Transcript(history, message, clean);
      |first| <= |t| && t[..|first|] == first
  {
    var lines := HistoryLines(LastThree(history));
    var join := JoinLines(lines);
    var exchange := "User: " + message + "\nAI: " + clean;
    var t := Transcript(history, message, clean);
    assert t == (join + LiteralNewline) + exchange;
    JoinStartsWithFirst(lines);
    PrefixOfAppend(join, LiteralNewline + exchange, |lines[0]|);
  }

  /** Helper: a prefix of `a` is a prefix of `a + b`. */
  lemma PrefixOfAppend(a: string, b: string, n: nat)
    requires n <= |a|
    ensures (a + b)[..n] == a[..n]
  {
  }

  /** With three or more history entries, the transcript is exactly the
      lines of the last three, oldest first, each followed by the
      two-character separator, then the current exchange. */
  lemma TranscriptOfLastThree(history: seq<HistoryEntry>, message: string, clean: string)
    requires |history| >= 3
    ensures var n := |history|;
      Transcript(history, message, clean)
        == EntryLine(history[n - 3]) + "\\n" + EntryLine(history[n - 2]) + "\\n"
           + EntryLine(history[n - 1]) + "\\n" + ("User: " + message + "\nAI: " + clean)
  {
    var n := |history|;
    var a, b, c := EntryLine(history[n - 3]), EntryLine(history[n - 2]), EntryLine(history[n - 1]);
    var lines := HistoryLines(LastThree(history));
    assert lines == [a, b] + [c];
    assert [a, b] == [a] + [b];
    JoinLinesAppend([a], b);
    JoinLinesAppend([a, b], c);
  }

  /** Helper: the end of a concatenation. */
  lemma EndsWith(a: string, b: string)
    ensures (a + b)[|a + b| - |b|..] == b
  {
  }

  /** Helper: a non-empty join starts with its first line. */
  lemma JoinStartsWithFirst(lines: seq<string>)
    requires |lines| > 0
    ensures |lines[0]| <= |JoinLines(lines)| && JoinLines(lines)[..|lines[0]|] == lines[0]
  {
    if |lines| > 1 {
      assert JoinLines(lines) == lines[0] + (LiteralNewline + JoinLines(lines[1..]));
    }
  }

  /** Only the last three entries reach the transcript: anything older can
      be dropped without changing it. */
  lemma TranscriptForgetsOlderHistory(older: seq<HistoryEntry>, recent: seq<HistoryEntry>, message: string, clean: string)
    requires |recent| >= 3
    ensures Transcript(older + recent, message, clean) == Transcript(recent, message, clean)
  {
    assert LastThree(older + recent) == LastThree(recent);
  }

  /** A character of `[0-9a-f\-]` under `re.IGNORECASE`. */
  predicate UuidChar(c: char)
  {
    ('0' <= c <= '9') || ('a' <= ReFold(c) <= 'f') || c == '-'
  }

  /** `re.match(r"^[0-9a-f\-]{36}$", tid, re.I)`: 36 such characters, where
      `$` also accepts one newline at the very end. */
  predicate UuidLike(t: string)
  {
    && (|t| == 36 || (|t| == 37 && t[36] == '\n'))
    && forall i :: 0 <= i < 36 ==> UuidChar(t[i])
  }

  /** The `$` of the pattern also accepts one final newline: a 36-character
      UUID-shaped id stays UUID-shaped with a newline appended, and nothing
      else does. */
  lemma UuidLikeTrailingNewline(t: string)
    ensures UuidLike(t + "\n") <==> |t| == 36 && UuidLike(t)
  {
    var u := t + "\n";
    if UuidLike(u) {
      assert u[|t|] == '\n';
      assert |t| == 36;
      assert forall i :: 0 <= i < 36 ==> u[i] == t[i];
    }
  }
}

=== FILE: resolver.dfy ===
/** The transaction resolver: the order-reference candidate the chat turn
    picks out of a customer message, the transaction lookup, the
    existing-claim check, and the `[SYSTEM]` note they produce for the
    prompt. */
module Resolver {
  import opened Wrappers
  import opened Text
  import opened Like
  import opened Store

  /** A character of the regex class `[A-Za-z0-9\-]` under `re.IGNORECASE`. */
  predicate RefChar(c: char)
  {
    ('a' <= ReFold(c) <= 'z') || ('0' <= c <= '9') || c == '-'
  }

  /** The end of the run of reference characters starting at `i`. */
  function RunEnd(s: string, i: nat): (e: nat)
    requires i <= |s|
    decreases |s| - i
    ensures i <= e <= |s|
    ensures forall k :: i <= k < e ==> RefChar(s[k])
    ensures e < |s| ==> !RefChar(s[e])
  {
    if i < |s| && RefChar(s[i]) then RunEnd(s, i + 1) else i
  }

  /** Where the optional prefix `order\s+id\s*[:#]?\s*` ends when it starts
      at `p`. Every quantifier is greedy, and giving characters back could
      only leave a space, `:` or `#` in front of the captured run, none of
      which is a reference character, so the greedy end is the only one
      that matters. */
  function OrderPrefixEnd(s: string, p: nat): (r: Option<nat>)
    ensures r.Some? ==> p + 8 <= r.value <= |s| && ReMatchesCI(s[p..p + 5], "order")
    ensures r.Some? ==> exists a, b, c :: PrefixShape(s, p, a, b, c, r.value)
  {
    if !(p + 5 <= |s| && ReMatchesCI(s[p..p + 5], "order")) then None
    else
      var a := SkipSpaces(s, p + 5);
      if a == p + 5 || !(a + 2 <= |s| && ReMatchesCI(s[a..a + 2], "id")) then None
      else
        var b := SkipSpaces(s, a + 2);
        var c := if b < |s| && (s[b] == ':' || s[b] == '#') then b + 1 else b;
        var e := SkipSpaces(s, c);
        assert PrefixShape(s, p, a, b, c, e);
        Some(e)
  }

  /** The prefix `order\s+id\s*[:#]?\s*` read greedily from `p`: `order`,
      whitespace up to `a`, `id`, whitespace up to `b`, an optional `:` or
      `#` up to `c`, and whitespace up to `e`, each part as long as it can
      be. */
  predicate PrefixShape(s: string, p: nat, a: nat, b: nat, c: nat, e: nat)
  {
    && p + 5 < a && a + 2 <= b <= c <= e <= |s|
    && ReMatchesCI(s[p..p + 5], "order")
    && (forall k :: p + 5 <= k < a ==> IsSpace(s[k]))
    && ReMatchesCI(s[a..a + 2], "id")
    && (forall k :: a + 2 <= k < b ==> IsSpace(s[k]))
    && (b < |s| ==> !IsSpace(s[b]))
    && (if c == b + 1 then s[b] == ':' || s[b] == '#'
        else c == b && (b < |s| ==> s[b] != ':' && s[b] != '#'))
    && (forall k :: c <= k < e ==> IsSpace(s[k]))
    && (e < |s| ==> !IsSpace(s[e]))
  }

  /** The pattern starts with `#` directly before a reference character. */
  predicate HashGroup(s: string, p: nat)
  {
    p + 1 < |s| && s[p] == '#' && RefChar(s[p + 1])
  }

  /** The `order id` prefix starts at `p` and a reference character follows
      it. */
  predicate PrefixGroup(s: string, p: nat)
  {
    OrderPrefixEnd(s, p).Some? && OrderPrefixEnd(s, p).value < |s| && RefChar(s[OrderPrefixEnd(s, p).value])
  }

  /** The captured group when `(?:#|order\s+id\s*[:#]?\s*)?([A-Za-z0-9\-]+)`
      matches at position `p`: after `#`, after the `order id` prefix, or
      with no prefix, in that order of preference. */
  function MatchAt(s: string, p: nat): (g: Option<string>)
    ensures g.Some? ==> |g.value| > 0 && forall k :: 0 <= k < |g.value| ==> RefChar(g.value[k])
    ensures g.Some? <==> GroupStart(s, p).Some?
    ensures g.Some? ==> IsAt(s, g.value, GroupStart(s, p).value)
    ensures g.Some? ==> var e := GroupStart(s, p).value + |g.value|; e == |s| || !RefChar(s[e])
  {
    match GroupStart(s, p)
    case None => None
    case Some(st) =>
      RunAt(s, st);
      Some(s[st..RunEnd(s, st)])
  }

  /** Where the captured group starts when the pattern matches at `p`. */
  function GroupStart(s: string, p: nat): (st: Option<nat>)
    ensures st.Some? ==> p <= st.value < |s| && RefChar(s[st.value])
    ensures HashGroup(s, p) ==> st == Some(p + 1)
    ensures !HashGroup(s, p) && PrefixGroup(s, p) ==> st == OrderPrefixEnd(s, p)
    ensures !HashGroup(s, p) && !PrefixGroup(s, p) ==> st == (if p < |s| && RefChar(s[p]) then Some(p) else None)
  {
    if p >= |s| then None
    else if s[p] == '#' && p + 1 < |s| && RefChar(s[p + 1]) then Some(p + 1)
    else
      var q := OrderPrefixEnd(s, p);
      if q.Some? && q.value < |s| && RefChar(s[q.value]) then Some(q.value)
      else if RefChar(s[p]) then Some(p)
      else None
  }

  /** Helper: the run starting at a reference character is a non-empty
      run of them, found where it starts. */
  lemma RunAt(s: string, st: nat)
    requires st < |s| && RefChar(s[st])
    ensures var g := s[st..RunEnd(s, st)];
      |g| > 0 && (forall k :: 0 <= k < |g| ==> RefChar(g[k])) && IsAt(s, g, st)
  {
    var g := s[st..RunEnd(s, st)];
    forall k | 0 <= k < |g| ensures RefChar(g[k]) {
      assert g[k] == s[st + k];
    }
  }

  /** The pattern matches at `p` exactly when `p` holds a reference
      character, or a `#` followed by one. */
  lemma MatchAtWhen(s: string, p: nat)
    requires p < |s|
    ensures MatchAt(s, p).Some? <==> RefChar(s[p]) || (s[p] == '#' && p + 1 < |s| && RefChar(s[p + 1]))
  {
    if OrderPrefixEnd(s, p).Some? {
      assert ReFold(s[p]) == 'o';
    }
  }

  /** `re.search`: the first position at or after `from` where the pattern
      matches. */
  function SearchFrom(s: string, from: nat): (r: Option<nat>)
    decreases |s| - from
    ensures r.Some? ==> from <= r.value < |s| && MatchAt(s, r.value).Some?
    ensures r.Some? ==> forall k :: from <= k < r.value ==> MatchAt(s, k).None?
    ensures r.None? ==> forall k :: from <= k ==> MatchAt(s, k).None?
  {
    if from >= |s| then None
    else if MatchAt(s, from).Some? then Some(from)
    else SearchFrom(s, from + 1)
  }

  /** The candidate order reference of a message: the group of the leftmost
      match, if any. */
  function Candidate(message: string): (g: Option<string>)
    ensures g.Some? <==> exists p :: 0 <= p < |message| && MatchAt(message, p).Some?
    ensures g.Some? ==> exists p :: 0 <= p < |message| && MatchAt(message, p) == g
                                    && forall k :: 0 <= k < p ==> MatchAt(message, k).None?
  {
    match SearchFrom(message, 0)
    case None => None
    case Some(p) => MatchAt(message, p)
  }

  /** Without an `order id` prefix at its first reference character, the
      candidate of a message is its first maximal run of reference
      characters, whether or not a `#` stands in front of it. */
  lemma CandidateIsFirstRun(m: string, i: nat)
    requires i < |m| && RefChar(m[i])
    requires forall k :: 0 <= k < i ==> !RefChar(m[k])
    requires !PrefixGroup(m, i)
    ensures Candidate(m) == Some(m[i..RunEnd(m, i)])
  {
    var g := m[i..RunEnd(m, i)];
    assert MatchAt(m, i) == Some(g) by {
      assert GroupStart(m, i) == Some(i);
    }
    var q := SearchFrom(m, 0);
    assert q.Some? && q.value <= i;
    if q.value < i {
      assert q.value + 1 == i && m[q.value] == '#' by {
        NoMatchBeforeRun(m, i, q.value);
      }
      assert GroupStart(m, q.value) == Some(i);
    }
  }

  /** Helper: before the first reference character, the pattern can only
      match at a `#` right in front of it. */
  lemma NoMatchBeforeRun(m: string, i: nat, p: nat)
    requires i < |m| && p < i
    requires forall k :: 0 <= k < i ==> !RefChar(m[k])
    requires MatchAt(m, p).Some?
    ensures p + 1 == i && m[p] == '#'
  {
    MatchAtWhen(m, p);
  }

  /** A message without a single reference character has no candidate. */
  lemma NoRefCharNoCandidate(message: string)
    requires forall i :: 0 <= i < |message| ==> !RefChar(message[i])
    ensures Candidate(message).None?
  {
    forall p | 0 <= p < |message| ensures MatchAt(message, p).None? {
      MatchAtWhen(message, p);
    }
  }

  /** The leading word of "My item #AB12 arrived broken" is what the search
      captures, so the `#AB12` later in the message is never looked at. */
  lemma CandidateOfShortLeadingWord()
    ensures Candidate("My item #AB12 arrived broken") == Some("My")
  {
    var s := "My item #AB12 arrived broken";
    assert s[0] == 'M' && s[1] == 'y' && s[2] == ' ';
    assert RefChar(s[0]) && RefChar(s[1]) && !RefChar(s[2]);
    assert RunEnd(s, 2) == 2;
    assert RunEnd(s, 1) == 2;
    assert RunEnd(s, 0) == 2;
    assert !ReMatchesCI(s[0..5], "order") by {
      assert ReFold(s[0]) != "order"[0];
    }
    assert OrderPrefixEnd(s, 0).None?;
    assert MatchAt(s, 0) == Some(s[0..2]);
    assert SearchFrom(s, 0) == Some(0);
    assert s[0..2] == "My";
  }

  /** "Order ID: AB12-9" captures the reference after the prefix. */
  lemma CandidateAfterOrderIdPrefix()
    ensures Candidate("Order ID: AB12-9") == Some("AB12-9")
  {
    ExampleMatch();
    assert SearchFrom("Order ID: AB12-9", 0) == Some(0);
  }

  /** Helper: the pattern matches at the start of the example. */
  lemma ExampleMatch()
    ensures MatchAt("Order ID: AB12-9", 0) == Some("AB12-9")
  {
    var s := "Order ID: AB12-9";
    ExampleGroupStart();
    ExampleRun();
    assert s == "Order ID: " + "AB12-9";
    assert s[10..RunEnd(s, 10)] == "AB12-9";
  }

  /** Helper: the example's group starts after the prefix. */
  lemma ExampleGroupStart()
    ensures GroupStart("Order ID: AB12-9", 0) == Some(10)
  {
    var s := "Order ID: AB12-9";
    assert s[0] == 'O' && s[10] == 'A';
    ExamplePrefix();
  }

  /** Helper: the example's `Order ID: ` prefix ends at index 10. */
  lemma ExamplePrefix()
    ensures OrderPrefixEnd("Order ID: AB12-9", 0) == Some(10)
  {
    var s := "Order ID: AB12-9";
    ExampleWords();
    ExampleSpaces();
    assert s[8] == ':';
  }

  /** Helper: the example starts with `Order` and `ID`, in any case. */
  lemma ExampleWords()
    ensures var s := "Order ID: AB12-9";
      |s| == 16 && ReMatchesCI(s[0..5], "order") && ReMatchesCI(s[6..8], "id")
  {
    var s := "Order ID: AB12-9";
    assert s[0..5] == "Order";
    assert s[6..8] == "ID";
  }

  /** Helper: where the example's whitespace runs end. */
  lemma ExampleSpaces()
    ensures var s := "Order ID: AB12-9";
      SkipSpaces(s, 5) == 6 && SkipSpaces(s, 8) == 8 && SkipSpaces(s, 9) == 10
  {
    var s := "Order ID: AB12-9";
    assert s[5] == ' ' && s[6] == 'I' && s[8] == ':' && s[9] == ' ' && s[10] == 'A';
  }

  /** Helper: the run after the example's prefix reaches the end. */
  lemma ExampleRun()
    ensures RunEnd("Order ID: AB12-9", 10) == 16
  {
    var s := "Order ID: AB12-9";
    assert s[10..] == "AB12-9";
    assert forall k :: 10 <= k < |s| ==> RefChar(s[k]) by {
      forall k | 10 <= k < |s| ensures RefChar(s[k]) {
        assert s[k] == s[10..][k - 10];
      }
    }
    RunToEnd(s, 10);
  }

  /** Helper: a run of reference characters up to the end of the string
      ends there. */
  lemma {:induction false} RunToEnd(s: string, i: nat)
    requires i <= |s|
    requires forall k :: i <= k < |s| ==> RefChar(s[k])
    ensures RunEnd(s, i) == |s|
    decreases |s| - i
  {
    if i < |s| {
      RunToEnd(s, i + 1);
    }
  }

  /** `order_ref.replace("#", "").strip()`. */
  function Normalize(ref: string): (r: string)
    ensures forall i :: 0 <= i < |r| ==> r[i] != '#'
    ensures Stripped(r)
    ensures |r| <= |ref|
    ensures exists a :: TrimmedAt(RemoveChar(ref, '#'), r, a)
  {
    Strip(RemoveChar(ref, '#'))
  }

  /** A candidate token is already normal: it has no `#` and no space. */
  lemma NormalizeToken(tok: string)
    requires forall k :: 0 <= k < |tok| ==> RefChar(tok[k])
    ensures Normalize(tok) == tok
    ensures Literal(tok)
  {
    forall k | 0 <= k < |tok| ensures tok[k] != '#' && !IsSpace(tok[k]) && !Special(tok[k]) {
      RefCharIsPlain(tok[k]);
    }
    StripStripped(tok);
  }

  /** Helper: a reference character is neither `#`, nor whitespace, nor
      special in a LIKE pattern. */
  lemma RefCharIsPlain(c: char)
    requires RefChar(c)
    ensures c != '#' && !IsSpace(c) && !Special(c)
  {
  }

  /** The lookup filter: the order reference matches the ILIKE pattern and,
      when a company is given, the company matches too. */
  predicate TxMatches(t: Transaction, pattern: string, company: string)
  {
    ILike(t.orderRef, pattern) && (company == "" || t.companyId == company)
  }

  /** The first transaction, in table order, that passes the filter. */
  function FirstTx(txs: seq<Transaction>, pattern: string, company: string): (r: Option<Transaction>)
    ensures r.Some? ==> r.value in txs && TxMatches(r.value, pattern, company)
    ensures r.None? <==> forall i :: 0 <= i < |txs| ==> !TxMatches(txs[i], pattern, company)
  {
    if |txs| == 0 then None
    else if TxMatches(txs[0], pattern, company) then Some(txs[0])
    else FirstTx(txs[1..], pattern, company)
  }

  /** `verify_transaction(ref, company)`: without a database client the
      query builder itself raises; otherwise the first transaction whose
      `order_ref` ILIKE-matches the normalised reference, within the company
      when one is given. */
  function VerifyTransaction(db: Store, ref: string, company: string): (r: Outcome<Option<Transaction>>)
    ensures r.Raised? <==> !db.connected
    ensures r.Done? && r.value.Some? ==>
              r.value.value in db.transactions && TxMatches(r.value.value, Normalize(ref), company)
    ensures r.Done? && r.value.None? ==> forall t :: t in db.transactions ==> !TxMatches(t, Normalize(ref), company)
  {
    if !db.connected then Raised
    else Done(FirstTx(db.transactions, Normalize(ref), company))
  }

  /** `check_existing_claim(tid)`: the status of the first `refund_requests`
      row of the transaction, whatever that status is. An empty id disables
      the filter, so then any row counts. */
  function ExistingClaim(db: Store, tid: string): (r: Option<string>)
    ensures !db.connected ==> r.None?
    ensures db.connected ==>
              (r.Some? <==> exists i :: 0 <= i < |db.refunds| && (tid == "" || db.refunds[i].transactionId == tid))
    ensures r.Some? ==> exists i :: 0 <= i < |db.refunds| && db.refunds[i].status == r.value
                                   && (tid == "" || db.refunds[i].transactionId == tid)
  {
    if !db.connected then None else FirstClaimStatus(db.refunds, tid)
  }

  /** Helper: the status of the first row of `rows` for `tid`. */
  function FirstClaimStatus(rows: seq<RefundRequest>, tid: string): (r: Option<string>)
    ensures r.Some? <==> exists i :: 0 <= i < |rows| && (tid == "" || rows[i].transactionId == tid)
    ensures r.Some? ==> exists i :: 0 <= i < |rows| && rows[i].status == r.value
                                   && (tid == "" || rows[i].transactionId == tid)
  {
    if |rows| == 0 then None
    else if tid == "" || rows[0].transactionId == tid then Some(rows[0].status)
    else
      var r := FirstClaimStatus(rows[1..], tid);
      assert forall i :: 0 < i < |rows| ==> rows[i] == rows[1..][i - 1];
      r
  }

  /** The three-way verdict of the resolver on one message. */
  datatype Verdict =
    | Silent
    | NotFound(token: string)
    | ClaimExists(token: string, status: string)
    | ValidForClaim(token: string, txId: string)

  /** Order-like language: "order" in the lower-cased message, or a `#`. */
  predicate OrderLike(message: string)
  {
    Contains(Lower(message), "order") || Contains(message, "#")
  }

  /** Whether a message is order-like does not depend on its case. */
  lemma OrderLikeIgnoresCase(message: string)
    ensures OrderLike(Lower(message)) <==> OrderLike(message)
  {
    var l := Lower(message);
    assert Lower(l) == l by {
      assert forall i :: 0 <= i < |l| ==> Lower(l)[i] == l[i];
    }
    forall i: nat | i <= |l| ensures IsAt(l, "#", i) <==> IsAt(message, "#", i) {
      if i + 1 <= |l| {
        assert l[i..i + 1] == [l[i]] && message[i..i + 1] == [message[i]];
      }
    }
  }

  /** A candidate long enough to be looked up. */
  predicate LongToken(message: string)
  {
    Candidate(message).Some? && |Candidate(message).value| > 3
  }

  /** Does some transaction carry the reference `tok` (up to case) within
      the company, when one is given? */
  predicate Known(db: Store, tok: string, company: string)
  {
    exists t :: t in db.transactions && EqualCI(t.orderRef, tok) && (company == "" || t.companyId == company)
  }

  /** The side information of one message: nothing unless the candidate
      is longer than three characters; otherwise the lookup within the
      company decides between an existing claim, a valid transaction, and
      not found, and "not found" is only reported for order-like
      messages. */
  function Classify(db: Store, message: string, company: string): (r: Outcome<Verdict>)
    ensures !LongToken(message) ==> r == Done(Silent)
    ensures r.Raised? <==> LongToken(message) && !db.connected
    ensures r.Done? && !r.value.Silent? ==> r.value.token == Candidate(message).value
  {
    match Candidate(message)
    case None => Done(Silent)
    case Some(tok) =>
      if |tok| <= 3 then Done(Silent)
      else
        match VerifyTransaction(db, tok, company)
        case Raised => Raised
        case Done(None) => if OrderLike(message) then Done(NotFound(tok)) else Done(Silent)
        case Done(Some(t)) =>
          match ExistingClaim(db, t.id)
          case Some(st) => Done(ClaimExists(tok, st))
          case None => Done(ValidForClaim(tok, t.id))
  }

  /** Helper: the lookup of a candidate token is a case-insensitive
      comparison of the whole order reference. */
  lemma TokenLookup(db: Store, tok: string, company: string)
    requires db.connected
    requires forall k :: 0 <= k < |tok| ==> RefChar(tok[k])
    ensures VerifyTransaction(db, tok, company).value.None? <==> !Known(db, tok, company)
    ensures VerifyTransaction(db, tok, company).value.Some? ==>
              EqualCI(VerifyTransaction(db, tok, company).value.value.orderRef, tok)
  {
    NormalizeToken(tok);
    forall t | t in db.transactions ensures TxMatches(t, tok, company) <==> EqualCI(t.orderRef, tok) && (company == "" || t.companyId == company) {
      LiteralILike(t.orderRef, tok);
    }
    var r := VerifyTransaction(db, tok, company);
    if r.value.Some? {
      LiteralILike(r.value.value.orderRef, tok);
    }
  }

  /** "NOT FOUND" is reported exactly for a long candidate that no
      transaction of the company carries, in an order-like message. */
  lemma ClassifyNotFound(db: Store, message: string, company: string)
    ensures var r := Classify(db, message, company);
      r.Done? && r.value.NotFound? <==>
        LongToken(message) && db.connected && !Known(db, Candidate(message).value, company) && OrderLike(message)
  {
    var r := Classify(db, message, company);
    if LongToken(message) && db.connected {
      var tok := Candidate(message).value;
      TokenLookup(db, tok, company);
      var v := VerifyTransaction(db, tok, company);
      assert r.Done? && (r.value.NotFound? <==> v.value.None? && OrderLike(message));
    }
  }

  /** A long candidate that some transaction of the company carries always
      yields a verified note: "Claim EXISTS" with the status of a claim row
      of that transaction, or "Valid for claim" with its id when it has no
      claim row. */
  lemma ClassifyVerified(db: Store, message: string, company: string)
    ensures var r := Classify(db, message, company);
      r.Done? && (r.value.ClaimExists? || r.value.ValidForClaim?) <==>
        LongToken(message) && db.connected && Known(db, Candidate(message).value, company)
    ensures var r := Classify(db, message, company);
      r.Done? && r.value.ClaimExists? ==>
        exists t :: t in db.transactions && EqualCI(t.orderRef, r.value.token)
                    && ExistingClaim(db, t.id) == Some(r.value.status)
    ensures var r := Classify(db, message, company);
      r.Done? && r.value.ValidForClaim? ==>
        exists t :: t in db.transactions && EqualCI(t.orderRef, r.value.token)
                    && t.id == r.value.txId && ExistingClaim(db, t.id).None?
  {
    var r := Classify(db, message, company);
    if LongToken(message) && db.connected {
      var tok := Candidate(message).value;
      TokenLookup(db, tok, company);
      var v := VerifyTransaction(db, tok, company);
      if v.value.Some? {
        var t := v.value.value;
        assert t in db.transactions && EqualCI(t.orderRef, tok);
        assert r.value.ClaimExists? ==> ExistingClaim(db, t.id) == Some(r.value.status);
        assert r.value.ValidForClaim? ==> t.id == r.value.txId && ExistingClaim(db, t.id).None?;
      }
    }
  }

  /** An unverified message that is not order-like gets no note at all. */
  lemma ClassifySilentWithoutOrderLanguage(db: Store, message: string, company: string)
    requires db.connected && LongToken(message)
    requires !Known(db, Candidate(message).value, company) && !OrderLike(message)
    ensures Classify(db, message, company) == Done(Silent)
  {
    TokenLookup(db, Candidate(message).value, company);
  }

  /** The findings a note can report. */
  const NotFoundText: string := "NOT FOUND."

  function ClaimExistsText(status: string): string
  {
    "Verified. Claim EXISTS: " + status + "."
  }

  function ValidText(txId: string): string
  {
    "Verified. Valid for claim. UUID: " + txId + "."
  }

  /** `r` is a `[SYSTEM]` line about token `tok` that ends in `Tx <tok> <what>`. */
  predicate Says(r: string, tok: string, what: string)
  {
    IsAt(r, "\n[SYSTEM]: Tx " + tok + " ", 0) && EndsIn(r, "Tx " + tok + " " + what)
  }

  /** The text appended to the user turn for a verdict: a `[SYSTEM]` line
      naming the candidate token, ending in what the lookup found. */
  function Render(v: Verdict): (r: string)
    ensures v.Silent? <==> r == ""
    ensures v.NotFound? ==> Says(r, v.token, NotFoundText)
    ensures v.ClaimExists? ==> Says(r, v.token, ClaimExistsText(v.status))
    ensures v.ValidForClaim? ==> Says(r, v.token, ValidText(v.txId))
  {
    match v
    case Silent => ""
    case NotFound(tok) => Note(tok, NotFoundText)
    case ClaimExists(tok, st) => Note(tok, ClaimExistsText(st))
    case ValidForClaim(tok, id) => Note(tok, ValidText(id))
  }

  /** Helper: the `[SYSTEM]` line for token `tok` with the finding `what`. */
  function Note(tok: string, what: string): (r: string)
    ensures Says(r, tok, what)
  {
    var body := "Tx " + tok + " " + what;
    ConcatParts("\n[SYSTEM]: ", body);
    ConcatParts("\n[SYSTEM]: Tx " + tok + " ", what);
    assert "\n[SYSTEM]: " + body == "\n[SYSTEM]: Tx " + tok + " " + what;
    "\n[SYSTEM]: " + body
  }
}

=== FILE: roadmap.dfy ===
/** The fence stripper the roadmap generator applies to a language model's
    answer before parsing it as JSON. */
module Roadmap {
  import opened Wrappers
  import opened Text

  /** `s.split("```", 2)[1]` for an `s` that starts with a fence: the text
      between the first and the second fence, or everything after the first
      fence when there is no second one. */
  function SecondPart(s: string): (r: string)
    requires IsAt(s, Fence, 0)
    ensures |r| <= |s| - 3 && r == s[3..3 + |r|]
    ensures 3 + |r| < |s| ==> IsAt(s, Fence, 3 + |r|)
    ensures forall k: nat :: 3 <= k < 3 + |r| ==> !IsAt(s, Fence, k)
  {
    match IndexFrom(s, Fence, 3)
    case None => s[3..]
    case Some(e) => s[3..e]
  }

  /** A string without a backtick has no fence in it. */
  lemma NoBacktickNoFence(b: string)
    requires forall i :: 0 <= i < |b| ==> b[i] != '`'
    ensures !Contains(b, Fence)
  {
    forall k: nat | k <= |b| ensures !IsAt(b, Fence, k) {
      if k + 3 <= |b| {
        assert b[k..k + 3][0] == b[k];
      }
    }
  }

  /** `clean_json_output`: strip; when the result opens with a fence, keep
      the part after it up to the next fence, cut the first `json` out of
      it wherever it occurs, and strip again. */
  function CleanJsonOutput(raw: string): (r: string)
    ensures Stripped(r)
    ensures |r| <= |raw|
    ensures !IsAt(Strip(raw), Fence, 0) ==> r == Strip(raw)
  {
    var s := Strip(raw);
    if IsAt(s, Fence, 0) then Strip(RemoveFirst(SecondPart(s), "json")) else s
  }

  /** A fenced body without a fence inside, and not ending in a backtick,
      comes out with its first `json` removed and stripped. */
  lemma FencedBody(b: string)
    requires !Contains(b, Fence)
    requires |b| == 0 || b[|b| - 1] != '`'
    ensures CleanJsonOutput(Fence + b + Fence) == Strip(RemoveFirst(b, "json"))
  {
    var s := Fence + b + Fence;
    assert s[0] == '`' && s[|s| - 1] == '`';
    StripStripped(s);
    assert IsAt(s, Fence, 0);
    FirstCloseAfterBody(b);
    assert SecondPart(s) == b;
  }

  /** Helper: the first fence after the opening one is the closing one. */
  lemma FirstCloseAfterBody(b: string)
    requires !Contains(b, Fence)
    requires |b| == 0 || b[|b| - 1] != '`'
    ensures IndexFrom(Fence + b + Fence, Fence, 3) == Some(3 + |b|)
  {
    var s := Fence + b + Fence;
    assert IsAt(s, Fence, 3 + |b|) by {
      assert s[3 + |b|..3 + |b| + 3] == Fence;
    }
    assert forall k: nat :: 3 <= k < 3 + |b| ==> !IsAt(s, Fence, k) by {
      NoFenceInsideBody(b);
    }
    IndexFromIs(s, Fence, 3, 3 + |b|);
  }

  /** Helper: no fence starts inside the body of a fenced body. */
  lemma NoFenceInsideBody(b: string)
    requires !Contains(b, Fence)
    requires |b| == 0 || b[|b| - 1] != '`'
    ensures forall k: nat :: 3 <= k < 3 + |b| ==> !IsAt(Fence + b + Fence, Fence, k)
  {
    var s := Fence + b + Fence;
    forall k: nat | 3 <= k < 3 + |b| ensures !IsAt(s, Fence, k) {
      if k + 3 <= 3 + |b| {
        assert s[k..k + 3] == b[k - 3..k];
        assert !IsAt(b, Fence, k - 3);
      } else {
        assert s[2 + |b|] == b[|b| - 1];
        assert s[k..k + 3][2 + |b| - k] == s[2 + |b|];
      }
    }
  }

  /** The documented use: a ```` ```json ```` fence around a body without
      fences gives back the stripped body. */
  lemma FencedRoundTrip(x: string)
    requires !Contains(x, Fence)
    ensures CleanJsonOutput("```json\n" + x + "\n```") == Strip(x)
  {
    var t := "\n" + x + "\n";
    calc {
      CleanJsonOutput("```json\n" + x + "\n```");
    == { TaggedFence(x); }
      Strip(RemoveFirst("json" + t, "json"));
    == { LeadingJsonRemoved(t); }
      Strip(t);
    == { StripPadded("\n", x, "\n"); }
      Strip(x);
    }
  }

  /** Helper: the tagged fence is a fenced body starting with `json`. */
  lemma TaggedFence(x: string)
    requires !Contains(x, Fence)
    ensures var b := "json" + ("\n" + x + "\n");
      CleanJsonOutput("```json\n" + x + "\n```") == Strip(RemoveFirst(b, "json"))
  {
    TaggedShape(x);
    TaggedBodyHasNoFence(x);
    FencedBody("json" + ("\n" + x + "\n"));
  }

  /** Helper: the tagged fence splits into fence, body, fence. */
  lemma TaggedShape(x: string)
    ensures "```json\n" + x + "\n```" == Fence + ("json" + ("\n" + x + "\n")) + Fence
  {
  }

  /** Helper: a tagged body around a fence-free `x` has no fence. */
  lemma TaggedBodyHasNoFence(x: string)
    requires !Contains(x, Fence)
    ensures var b := "json" + ("\n" + x + "\n"); !Contains(b, Fence) && b[|b| - 1] != '`'
  {
    var b := "json" + ("\n" + x + "\n");
    forall k: nat | k <= |b| ensures !IsAt(b, Fence, k) {
      if k + 3 <= |b| {
        if k < 5 {
          assert b[k..k + 3][0] == b[k] == "json\n"[k];
        } else if k + 3 <= 5 + |x| {
          assert b[k..k + 3] == x[k - 5..k - 2];
          assert !IsAt(x, Fence, k - 5);
        } else {
          assert b[k..k + 3][5 + |x| - k] == b[5 + |x|] == '\n';
        }
      }
    }
  }

  /** Helper: a leading `json` is the one removed. */
  lemma LeadingJsonRemoved(t: string)
    ensures RemoveFirst("json" + t, "json") == t
  {
    var b := "json" + t;
    assert IsAt(b, "json", 0);
    assert IndexFrom(b, "json", 0) == Some(0);
    assert b[4..] == t;
  }

  /** The removal is not limited to a language tag: a key named `json` is
      cut out of the payload. */
  lemma JsonKeyCutOut()
    ensures CleanJsonOutput("```\n{\"json\":1}\n```") == "{\"\":1}"
  {
    ExampleFence();
    ExampleJsonRemoved();
    ExampleStrip();
  }

  /** Helper: the example is a fenced body. */
  lemma ExampleFence()
    ensures CleanJsonOutput("```\n{\"json\":1}\n```") == Strip(RemoveFirst("\n{\"json\":1}\n", "json"))
  {
    var b := "\n{\"json\":1}\n";
    assert "```\n{\"json\":1}\n```" == Fence + b + Fence;
    ExampleBodyHasNoFence();
    FencedBody(b);
  }

  /** Helper: the example's payload survives the final strip. */
  lemma ExampleStrip()
    ensures Strip("\n" + "{\"\":1}" + "\n") == "{\"\":1}"
  {
    var y := "{\"\":1}";
    assert y[0] == '{' && y[|y| - 1] == '}';
    StrippedLineStrip(y);
  }

  /** Helper: a stripped text on a line of its own strips back to itself. */
  lemma StrippedLineStrip(y: string)
    requires Stripped(y)
    ensures Strip("\n" + y + "\n") == y
  {
    StripPadded("\n", y, "\n");
    StripStripped(y);
  }

  /** Helper: the example's body has no fence and does not end in a
      backtick. */
  lemma ExampleBodyHasNoFence()
    ensures !Contains("\n{\"json\":1}\n", Fence)
  {
    var b := "\n{\"json\":1}\n";
    assert forall i :: 0 <= i < |b| ==> b[i] != '`';
    NoBacktickNoFence(b);
  }

  /** Helper: the first `json` of the example's body sits at index 3. */
  lemma ExampleJsonRemoved()
    ensures RemoveFirst("\n{\"json\":1}\n", "json") == "\n" + "{\"\":1}" + "\n"
  {
    var b := "\n{\"json\":1}\n";
    assert b[3..7] == "json";
    forall j: nat | j < 3 ensures !IsAt(b, "json", j) {
      assert b[j..j + 4][0] == b[j] != 'j';
    }
    IndexFromIs(b, "json", 0, 3);
    assert b[..3] + b[7..] == "\n" + "{\"\":1}" + "\n";
  }
}

=== FILE: stats.dfy ===
/** The process-wide interaction counters and the resolution rate derived
    from them. Elapsed time and the satisfaction score are not modelled. */
module Stats {
  import opened Wrappers

  /** The integer part of the statistics record. */
  datatype Stats = Stats(totalInteractions: nat, aiResolved: nat, escalated: nat)

  /** A freshly started process. */
  const Initial: Stats := Stats(0, 0, 0)

  /** The action values counted as resolved by the assistant. */
  predicate CountsResolved(action: Json)
  {
    action == JStr("REFUND") || action == JStr("APPROVED")
  }

  /** The action value counted as escalated. */
  predicate CountsEscalated(action: Json)
  {
    action == JStr("ESCALATE")
  }

  /** Records one finished chat turn whose decision block named `action`
      (`JNull` when there was none). */
  function Update(s: Stats, action: Json): (r: Stats)
    ensures r.totalInteractions == s.totalInteractions + 1
    ensures CountsResolved(action) ==> r.aiResolved == s.aiResolved + 1
    ensures !CountsResolved(action) ==> r.aiResolved == s.aiResolved
    ensures CountsEscalated(action) ==> r.escalated == s.escalated + 1
    ensures !CountsEscalated(action) ==> r.escalated == s.escalated
  {
    if CountsResolved(action) then s.(totalInteractions := s.totalInteractions + 1, aiResolved := s.aiResolved + 1)
    else if CountsEscalated(action) then s.(totalInteractions := s.totalInteractions + 1, escalated := s.escalated + 1)
    else s.(totalInteractions := s.totalInteractions + 1)
  }

  /** A turn whose action is neither resolving nor escalating (REJECT, no
      decision, any other value) only counts the interaction. */
  lemma UpdateWithoutDecision(s: Stats, action: Json)
    requires action == JNull || action == JStr("REJECT") || !action.JStr?
    ensures Update(s, action) == Stats(s.totalInteractions + 1, s.aiResolved, s.escalated)
  {
    assert "REJECT"[2] != "REFUND"[2] && "REJECT"[2] != "APPROVED"[2] && "REJECT"[2] != "ESCALATE"[2];
  }

  /** Every decision was also an interaction. */
  predicate Consistent(s: Stats)
  {
    s.aiResolved + s.escalated <= s.totalInteractions
  }

  /** `Update` keeps the counters consistent. */
  lemma UpdateConsistent(s: Stats, action: Json)
    requires Consistent(s)
    ensures Consistent(Update(s, action))
  {
  }

  /** The counters after a process has seen the turns `actions`, in order. */
  function Replay(actions: seq<Json>): Stats
  {
    if |actions| == 0 then Initial
    else Update(Replay(actions[..|actions| - 1]), actions[|actions| - 1])
  }

  /** How many of `actions` are counted as resolved. */
  function ResolvedCount(actions: seq<Json>): nat
  {
    if |actions| == 0 then 0
    else ResolvedCount(actions[..|actions| - 1]) + (if CountsResolved(actions[|actions| - 1]) then 1 else 0)
  }

  /** How many of `actions` are counted as escalated. */
  function EscalatedCount(actions: seq<Json>): nat
  {
    if |actions| == 0 then 0
    else EscalatedCount(actions[..|actions| - 1]) + (if CountsEscalated(actions[|actions| - 1]) then 1 else 0)
  }

  /** After any history of turns, the counters are exactly the number of
      turns, of resolving actions and of escalating actions. */
  lemma {:induction false} ReplayCounts(actions: seq<Json>)
    ensures Replay(actions) == Stats(|actions|, ResolvedCount(actions), EscalatedCount(actions))
    ensures Consistent(Replay(actions))
  {
    if |actions| > 0 {
      ReplayCounts(actions[..|actions| - 1]);
    }
  }

  /** The number of decisions the resolution rate is taken over. */
  function Decisions(s: Stats): nat
  {
    s.aiResolved + s.escalated
  }

  /** The resolution percentage shown on the dashboard: the resolved share of
      all decisions, truncated to an integer; 100 when there were turns but
      no decisions; 0 before the first turn. */
  function ResolutionRate(s: Stats): (r: nat)
    ensures r <= 100
    ensures Decisions(s) > 0 ==> r * Decisions(s) <= 100 * s.aiResolved < (r + 1) * Decisions(s)
    ensures Decisions(s) == 0 && s.totalInteractions > 0 ==> r == 100
    ensures Decisions(s) == 0 && s.totalInteractions == 0 ==> r == 0
  {
    if Decisions(s) > 0 then Percent(s.aiResolved, Decisions(s))
    else if s.totalInteractions > 0 then 100
    else 0
  }

  /** Helper: `k` out of `d` as a truncated percentage. */
  function Percent(k: nat, d: nat): (q: nat)
    requires 0 < d && k <= d
    ensures q <= 100
    ensures q * d <= 100 * k < (q + 1) * d
  {
    (100 * k) / d
  }

  /** Three refunds and one escalation give a resolution rate of 75. */
  lemma ResolutionThreeToOne()
    ensures ResolutionRate(Replay([JStr("REFUND"), JStr("REFUND"), JStr("REFUND"), JStr("ESCALATE")])) == 75
  {
    var r := JStr("REFUND");
    var e := JStr("ESCALATE");
    assert CountsResolved(r) && !CountsEscalated(r);
    assert !CountsResolved(e) && CountsEscalated(e);
    assert [r, r, r, e][..3] == [r, r, r];
    assert [r, r, r][..2] == [r, r];
    assert [r, r][..1] == [r];
    assert Replay([r]) == Stats(1, 1, 0);
    assert Replay([r, r]) == Stats(2, 2, 0);
    assert Replay([r, r, r]) == Stats(3, 3, 0);
    var s := Replay([r, r, r, e]);
    assert s == Stats(4, 3, 1);
    assert 100 * 3 / 4 == 75;
  }

  /** Two turns without a decision give 100, no turn at all gives 0. */
  lemma ResolutionWithoutDecisions()
    ensures ResolutionRate(Replay([JNull, JStr("REJECT")])) == 100
    ensures ResolutionRate(Replay([])) == 0
  {
    var j := JStr("REJECT");
    assert "REJECT"[2] != "REFUND"[2] && "REJECT"[2] != "APPROVED"[2];
    assert !CountsResolved(j) && !CountsEscalated(j);
    assert [JNull, j][..1] == [JNull];
    assert Replay([JNull]) == Stats(1, 0, 0);
    assert Replay([JNull, j]) == Stats(2, 0, 0);
    assert Replay([]) == Initial;
  }
}

=== FILE: store.dfy ===
/** The database tables the claims engine reads and writes, held in memory
    as sequences of rows in insertion order, which is also the order every
    query here returns them in, together with the insert helpers,
    the status update with privacy clearing, and the policy update.
    An empty string in an id column stands for SQL NULL. */
module Store {
  import opened Wrappers

  /** A row of `transactions`. Never written by the engine. */
  datatype Transaction = Transaction(id: string, orderRef: string, companyId: string, amount: int)

  /** A row of `refund_requests`. `reason` is the single entry of its
      `ai_analysis_json` object; `None` is SQL NULL. */
  datatype RefundRequest = RefundRequest(
    id: nat, transactionId: string, companyId: string, status: string,
    reason: Json, evidenceUrl: Option<string>, transcript: Option<string>)

  /** A row of `company_refund_queue`. */
  datatype PayoutEntry = PayoutEntry(id: nat, transactionId: string, companyId: string, amount: int, status: string)

  /** A row of `escalation_requests`. */
  datatype Escalation = Escalation(id: nat, transactionId: string, customerId: Option<string>, reason: Json, status: string)

  /** A row of `companies`, reduced to what the engine reads and writes. */
  datatype Company = Company(id: string, returnPolicy: string)

  /** The database. `connected` is false when no client could be configured;
      `nextId` is the next id the database hands out to a claim row. */
  datatype Store = Store(
    connected: bool,
    transactions: seq<Transaction>,
    refunds: seq<RefundRequest>,
    payouts: seq<PayoutEntry>,
    escalations: seq<Escalation>,
    companies: seq<Company>,
    nextId: nat)

  /** Claim row ids are below the id counter and distinct within each table. */
  predicate Valid(db: Store)
  {
    && (forall i :: 0 <= i < |db.refunds| ==> db.refunds[i].id < db.nextId)
    && (forall i :: 0 <= i < |db.payouts| ==> db.payouts[i].id < db.nextId)
    && (forall i :: 0 <= i < |db.escalations| ==> db.escalations[i].id < db.nextId)
    && (forall i, j :: 0 <= i < j < |db.refunds| ==> db.refunds[i].id != db.refunds[j].id)
    && (forall i, j :: 0 <= i < j < |db.payouts| ==> db.payouts[i].id != db.payouts[j].id)
    && (forall i, j :: 0 <= i < j < |db.escalations| ==> db.escalations[i].id != db.escalations[j].id)
  }

  /** `b` has the same claim rows as `a`, up to fields other than the id. */
  predicate SameIds(a: Store, b: Store)
  {
    && b.nextId == a.nextId
    && |b.refunds| == |a.refunds| && (forall i :: 0 <= i < |a.refunds| ==> b.refunds[i].id == a.refunds[i].id)
    && |b.payouts| == |a.payouts| && (forall i :: 0 <= i < |a.payouts| ==> b.payouts[i].id == a.payouts[i].id)
    && |b.escalations| == |a.escalations| && (forall i :: 0 <= i < |a.escalations| ==> b.escalations[i].id == a.escalations[i].id)
  }

  /** `r` holds every row of `db` and possibly more, appended at the end of
      each table: the engine never deletes or reorders a row. */
  predicate Extends(db: Store, r: Store)
  {
    && r.connected == db.connected
    && r.transactions == db.transactions
    && r.companies == db.companies
    && |db.refunds| <= |r.refunds| && r.refunds[..|db.refunds|] == db.refunds
    && |db.payouts| <= |r.payouts| && r.payouts[..|db.payouts|] == db.payouts
    && |db.escalations| <= |r.escalations| && r.escalations[..|db.escalations|] == db.escalations
    && db.nextId <= r.nextId
  }

  /** `create_claim`: appends one `refund_requests` row with a fresh id; a
      store without a client is left as it is. */
  function CreateClaim(db: Store, tid: string, cid: string, status: string, reason: Json,
                       evidence: Option<string>, transcript: Option<string>): (r: Store)
    ensures Extends(db, r)
    ensures !db.connected ==> r == db
    ensures db.connected ==>
              && r.refunds == db.refunds + [RefundRequest(db.nextId, tid, cid, status, reason, evidence, transcript)]
              && r.payouts == db.payouts && r.escalations == db.escalations
    ensures Valid(db) ==> Valid(r)
  {
    if !db.connected then db
    else db.(refunds := db.refunds + [RefundRequest(db.nextId, tid, cid, status, reason, evidence, transcript)],
             nextId := db.nextId + 1)
  }

  /** `create_refund_entry`: appends one `company_refund_queue` row in state
      READY_FOR_PAYOUT. */
  function CreateRefundEntry(db: Store, tid: string, cid: string, amount: int): (r: Store)
    ensures Extends(db, r)
    ensures !db.connected ==> r == db
    ensures db.connected ==>
              && r.payouts == db.payouts + [PayoutEntry(db.nextId, tid, cid, amount, "READY_FOR_PAYOUT")]
              && r.refunds == db.refunds && r.escalations == db.escalations
    ensures Valid(db) ==> Valid(r)
  {
    if !db.connected then db
    else db.(payouts := db.payouts + [PayoutEntry(db.nextId, tid, cid, amount, "READY_FOR_PAYOUT")],
             nextId := db.nextId + 1)
  }

  /** `create_escalation_entry`: appends one `escalation_requests` row in
      state OPEN; the customer id is stored only when it is non-empty. */
  function CreateEscalationEntry(db: Store, tid: string, customer: string, reason: Json): (r: Store)
    ensures Extends(db, r)
    ensures !db.connected ==> r == db
    ensures db.connected ==>
              && |r.escalations| == |db.escalations| + 1
              && r.escalations[|db.escalations|].transactionId == tid
              && r.escalations[|db.escalations|].status == "OPEN"
              && r.escalations[|db.escalations|].reason == reason
              && r.escalations[|db.escalations|].customerId == (if customer != "" then Some(customer) else None)
              && r.refunds == db.refunds && r.payouts == db.payouts
    ensures Valid(db) ==> Valid(r)
  {
    if !db.connected then db
    else
      var row := Escalation(db.nextId, tid, if customer != "" then Some(customer) else None, reason, "OPEN");
      db.(escalations := db.escalations + [row], nextId := db.nextId + 1)
  }

  /** The three claim tables `update_claim_status` can address. */
  datatype Table = RefundRequests | RefundQueue | EscalationRequests

  /** The table a name denotes; any other name makes the database call fail. */
  function TableNamed(name: string): (t: Option<Table>)
    ensures t == Some(RefundRequests) <==> name == "refund_requests"
    ensures t == Some(RefundQueue) <==> name == "company_refund_queue"
    ensures t == Some(EscalationRequests) <==> name == "escalation_requests"
  {
    if name == "refund_requests" then Some(RefundRequests)
    else if name == "company_refund_queue" then Some(RefundQueue)
    else if name == "escalation_requests" then Some(EscalationRequests)
    else None
  }

  /** A row returned by an update. */
  datatype Row = RefundRow(refund: RefundRequest) | PayoutRow(payout: PayoutEntry) | EscalationRow(escalation: Escalation)

  /** The effect of `update_claim_status`: the new store and the rows the
      status update returned (`None` when the call failed or there is no
      client). */
  datatype Updated = Updated(db: Store, rows: Option<seq<Row>>)

  /** A refund request with its transcript and evidence reference nulled. */
  function Cleared(r: RefundRequest): RefundRequest
  {
    r.(transcript := None, evidenceUrl := None)
  }

  /** Sets `status` on every refund request whose id is `id`. */
  function SetRefundStatus(rows: seq<RefundRequest>, id: nat, status: string): (r: seq<RefundRequest>)
    ensures |r| == |rows| && forall i :: 0 <= i < |r| ==> r[i].id == rows[i].id
  {
    seq(|rows|, i requires 0 <= i < |rows| => if rows[i].id == id then rows[i].(status := status) else rows[i])
  }

  /** Sets `status` on every payout entry whose id is `id`. */
  function SetPayoutStatus(rows: seq<PayoutEntry>, id: nat, status: string): (r: seq<PayoutEntry>)
    ensures |r| == |rows| && forall i :: 0 <= i < |r| ==> r[i].id == rows[i].id
  {
    seq(|rows|, i requires 0 <= i < |rows| => if rows[i].id == id then rows[i].(status := status) else rows[i])
  }

  /** Sets `status` on every escalation whose id is `id`. */
  function SetEscalationStatus(rows: seq<Escalation>, id: nat, status: string): (r: seq<Escalation>)
    ensures |r| == |rows| && forall i :: 0 <= i < |r| ==> r[i].id == rows[i].id
  {
    seq(|rows|, i requires 0 <= i < |rows| => if rows[i].id == id then rows[i].(status := status) else rows[i])
  }

  /** Clears the context of every refund request whose id is `id`. */
  function ClearById(rows: seq<RefundRequest>, id: nat): (r: seq<RefundRequest>)
    ensures |r| == |rows| && forall i :: 0 <= i < |r| ==> r[i].id == rows[i].id
  {
    seq(|rows|, i requires 0 <= i < |rows| => if rows[i].id == id then Cleared(rows[i]) else rows[i])
  }

  /** Clears the context of every refund request of transaction `tid`. */
  function ClearByTransaction(rows: seq<RefundRequest>, tid: string): (r: seq<RefundRequest>)
    ensures |r| == |rows| && forall i :: 0 <= i < |r| ==> r[i].id == rows[i].id
  {
    seq(|rows|, i requires 0 <= i < |rows| => if rows[i].transactionId == tid then Cleared(rows[i]) else rows[i])
  }

  /** The refund requests whose id is `id`, in table order. */
  function RefundsWithId(rows: seq<RefundRequest>, id: nat): (r: seq<Row>)
    ensures forall x :: x in r <==> x.RefundRow? && x.refund in rows && x.refund.id == id
  {
    if |rows| == 0 then []
    else (if rows[0].id == id then [RefundRow(rows[0])] else []) + RefundsWithId(rows[1..], id)
  }

  /** The payout entries whose id is `id`, in table order. */
  function PayoutsWithId(rows: seq<PayoutEntry>, id: nat): (r: seq<Row>)
    ensures forall x :: x in r <==> x.PayoutRow? && x.payout in rows && x.payout.id == id
    ensures |r| > 0 ==> r[0].PayoutRow? && r[0].payout.id == id
  {
    if |rows| == 0 then []
    else (if rows[0].id == id then [PayoutRow(rows[0])] else []) + PayoutsWithId(rows[1..], id)
  }

  /** The escalations whose id is `id`, in table order. */
  function EscalationsWithId(rows: seq<Escalation>, id: nat): (r: seq<Row>)
    ensures forall x :: x in r <==> x.EscalationRow? && x.escalation in rows && x.escalation.id == id
  {
    if |rows| == 0 then []
    else (if rows[0].id == id then [EscalationRow(rows[0])] else []) + EscalationsWithId(rows[1..], id)
  }

  /** `update_claim_status(table, id, status, clear_context)`. The status is
      written on the rows of `table` with that id and those rows are
      returned. With `clear`, a refund request loses its transcript and
      evidence reference; for a payout entry the same is done to every
      refund request of the first updated entry's transaction; an
      escalation clears nothing. */
  function UpdateClaimStatus(db: Store, table: string, id: nat, status: string, clear: bool): (u: Updated)
    ensures !db.connected || TableNamed(table).None? ==> u == Updated(db, None)
    ensures db.connected && TableNamed(table).Some? ==> u.rows.Some?
    ensures u.db.connected == db.connected && u.db.nextId == db.nextId
    ensures u.db.transactions == db.transactions && u.db.companies == db.companies
    ensures SameIds(db, u.db)
  {
    if !db.connected then Updated(db, None)
    else match TableNamed(table)
      case None => Updated(db, None)
      case Some(RefundRequests) =>
        var updated := SetRefundStatus(db.refunds, id, status);
        var rows := RefundsWithId(updated, id);
        Updated(db.(refunds := if clear then ClearById(updated, id) else updated), Some(rows))
      case Some(RefundQueue) =>
        var updated := SetPayoutStatus(db.payouts, id, status);
        var rows := PayoutsWithId(updated, id);
        var linked := if clear && |rows| > 0 && rows[0].payout.transactionId != ""
                      then ClearByTransaction(db.refunds, rows[0].payout.transactionId)
                      else db.refunds;
        Updated(db.(payouts := updated, refunds := linked), Some(rows))
      case Some(EscalationRequests) =>
        var updated := SetEscalationStatus(db.escalations, id, status);
        Updated(db.(escalations := updated), Some(EscalationsWithId(updated, id)))
  }

  /** The status lands on exactly the addressed rows of the addressed
      table; every other row of that table and every other table keeps its
      status. */
  lemma UpdateSetsStatusOnlyThere(db: Store, table: string, id: nat, status: string, clear: bool)
    requires db.connected
    ensures var u := UpdateClaimStatus(db, table, id, status, clear);
      && (forall i :: 0 <= i < |db.refunds| ==>
            u.db.refunds[i].status == (if table == "refund_requests" && db.refunds[i].id == id then status else db.refunds[i].status))
      && (forall i :: 0 <= i < |db.payouts| ==>
            u.db.payouts[i] == (if table == "company_refund_queue" && db.payouts[i].id == id
                                then db.payouts[i].(status := status) else db.payouts[i]))
      && (forall i :: 0 <= i < |db.escalations| ==>
            u.db.escalations[i] == (if table == "escalation_requests" && db.escalations[i].id == id
                                    then db.escalations[i].(status := status) else db.escalations[i]))
  {
  }

  /** The number of elements of `s` that satisfy `p`. */
  function CountWhere<T>(s: seq<T>, p: T -> bool): nat
  {
    if |s| == 0 then 0 else (if p(s[0]) then 1 else 0) + CountWhere(s[1..], p)
  }

  /** How many rows of table `t` carry the id `id`. */
  function IdCount(db: Store, t: Table, id: nat): nat
  {
    match t
    case RefundRequests => CountWhere(db.refunds, (q: RefundRequest) => q.id == id)
    case RefundQueue => CountWhere(db.payouts, (q: PayoutEntry) => q.id == id)
    case EscalationRequests => CountWhere(db.escalations, (q: Escalation) => q.id == id)
  }

  /** `x` is a row of table `t` of `db` with the id `id`, as it reads once
      its status is set: every other field is as it was before the update,
      so a refund request still carries the context a clearing removes. */
  predicate UpdatedRowOf(db: Store, t: Table, id: nat, status: string, x: Row)
  {
    match t
    case RefundRequests =>
      x.RefundRow? && exists j :: 0 <= j < |db.refunds| && db.refunds[j].id == id && x.refund == db.refunds[j].(status := status)
    case RefundQueue =>
      x.PayoutRow? && exists j :: 0 <= j < |db.payouts| && db.payouts[j].id == id && x.payout == db.payouts[j].(status := status)
    case EscalationRequests =>
      x.EscalationRow? && exists j :: 0 <= j < |db.escalations| && db.escalations[j].id == id && x.escalation == db.escalations[j].(status := status)
  }

  /** What the update returns: with a client and a known table, one row for
      each row of that table carrying the id, each with the new status and
      otherwise read before any clearing. */
  lemma UpdateReturnsRows(db: Store, table: string, id: nat, status: string, clear: bool)
    requires db.connected && TableNamed(table).Some?
    ensures var u := UpdateClaimStatus(db, table, id, status, clear);
      && u.rows.Some?
      && |u.rows.value| == IdCount(db, TableNamed(table).value, id)
      && forall x :: x in u.rows.value ==> UpdatedRowOf(db, TableNamed(table).value, id, status, x)
  {
    var t := TableNamed(table).value;
    match t
    case RefundRequests => RefundsReturned(db, db.refunds, id, status);
    case RefundQueue => PayoutsReturned(db, db.payouts, id, status);
    case EscalationRequests => EscalationsReturned(db, db.escalations, id, status);
  }

  /** Helper for `UpdateReturnsRows` on `refund_requests`, by induction on
      a suffix of the table. */
  lemma {:induction false} RefundsReturned(db: Store, rows: seq<RefundRequest>, id: nat, status: string)
    requires |rows| <= |db.refunds| && rows == db.refunds[|db.refunds| - |rows|..]
    ensures var r := RefundsWithId(SetRefundStatus(rows, id, status), id);
      && |r| == CountWhere(rows, (q: RefundRequest) => q.id == id)
      && forall x :: x in r ==> UpdatedRowOf(db, RefundRequests, id, status, x)
  {
    if |rows| > 0 {
      var k := |db.refunds| - |rows|;
      var u := SetRefundStatus(rows, id, status);
      assert rows[1..] == db.refunds[k + 1..];
      assert u[1..] == SetRefundStatus(rows[1..], id, status);
      assert rows[0] == db.refunds[k];
      assert u[0] == if rows[0].id == id then rows[0].(status := status) else rows[0];
      var head := if u[0].id == id then [RefundRow(u[0])] else [];
      var tail := RefundsWithId(u[1..], id);
      assert RefundsWithId(u, id) == head + tail;
      RefundsReturned(db, rows[1..], id, status);
      forall x | x in head + tail ensures UpdatedRowOf(db, RefundRequests, id, status, x) {
        if x !in tail {
          assert x == RefundRow(u[0]) && db.refunds[k].id == id && u[0] == db.refunds[k].(status := status);
        }
      }
    }
  }

  /** Helper for `UpdateReturnsRows` on `company_refund_queue`. */
  lemma {:induction false} PayoutsReturned(db: Store, rows: seq<PayoutEntry>, id: nat, status: string)
    requires |rows| <= |db.payouts| && rows == db.payouts[|db.payouts| - |rows|..]
    ensures var r := PayoutsWithId(SetPayoutStatus(rows, id, status), id);
      && |r| == CountWhere(rows, (q: PayoutEntry) => q.id == id)
      && forall x :: x in r ==> UpdatedRowOf(db, RefundQueue, id, status, x)
  {
    if |rows| > 0 {
      var k := |db.payouts| - |rows|;
      var u := SetPayoutStatus(rows, id, status);
      assert rows[1..] == db.payouts[k + 1..];
      assert u[1..] == SetPayoutStatus(rows[1..], id, status);
      assert rows[0] == db.payouts[k];
      assert u[0] == if rows[0].id == id then rows[0].(status := status) else rows[0];
      var head := if u[0].id == id then [PayoutRow(u[0])] else [];
      var tail := PayoutsWithId(u[1..], id);
      assert PayoutsWithId(u, id) == head + tail;
      PayoutsReturned(db, rows[1..], id, status);
      forall x | x in head + tail ensures UpdatedRowOf(db, RefundQueue, id, status, x) {
        if x !in tail {
          assert x == PayoutRow(u[0]) && db.payouts[k].id == id && u[0] == db.payouts[k].(status := status);
        }
      }
    }
  }

  /** Helper for `UpdateReturnsRows` on `escalation_requests`. */
  lemma {:induction false} EscalationsReturned(db: Store, rows: seq<Escalation>, id: nat, status: string)
    requires |rows| <= |db.escalations| && rows == db.escalations[|db.escalations| - |rows|..]
    ensures var r := EscalationsWithId(SetEscalationStatus(rows, id, status), id);
      && |r| == CountWhere(rows, (q: Escalation) => q.id == id)
      && forall x :: x in r ==> UpdatedRowOf(db, EscalationRequests, id, status, x)
  {
    if |rows| > 0 {
      var k := |db.escalations| - |rows|;
      var u := SetEscalationStatus(rows, id, status);
      assert rows[1..] == db.escalations[k + 1..];
      assert u[1..] == SetEscalationStatus(rows[1..], id, status);
      assert rows[0] == db.escalations[k];
      assert u[0] == if rows[0].id == id then rows[0].(status := status) else rows[0];
      var head := if u[0].id == id then [EscalationRow(u[0])] else [];
      var tail := EscalationsWithId(u[1..], id);
      assert EscalationsWithId(u, id) == head + tail;
      EscalationsReturned(db, rows[1..], id, status);
      forall x | x in head + tail ensures UpdatedRowOf(db, EscalationRequests, id, status, x) {
        if x !in tail {
          assert x == EscalationRow(u[0]) && db.escalations[k].id == id && u[0] == db.escalations[k].(status := status);
        }
      }
    }
  }

  /** Without `clear`, the update changes status fields and nothing else. */
  lemma UpdateWithoutClearKeepsContext(db: Store, table: string, id: nat, status: string)
    ensures var u := UpdateClaimStatus(db, table, id, status, false);
      forall i :: 0 <= i < |db.refunds| ==>
        u.db.refunds[i] == db.refunds[i].(status := u.db.refunds[i].status)
  {
  }

  /** Finalising a refund request with `clear` leaves no transcript and no
      evidence reference on it; no other refund request's context moves. */
  lemma FinalizeRefundClearsIt(db: Store, id: nat, status: string)
    requires db.connected
    ensures var u := UpdateClaimStatus(db, "refund_requests", id, status, true);
      forall i :: 0 <= i < |db.refunds| ==>
        if db.refunds[i].id == id then u.db.refunds[i].transcript.None? && u.db.refunds[i].evidenceUrl.None?
        else u.db.refunds[i] == db.refunds[i]
  {
  }

  /** The first payout entry with id `id`, in table order. */
  function FirstPayoutWithId(rows: seq<PayoutEntry>, id: nat): (r: Option<PayoutEntry>)
    ensures r.Some? ==> r.value in rows && r.value.id == id
    ensures r.None? <==> forall k :: 0 <= k < |rows| ==> rows[k].id != id
  {
    if |rows| == 0 then None
    else if rows[0].id == id then Some(rows[0])
    else FirstPayoutWithId(rows[1..], id)
  }

  /** Finalising a payout entry with `clear` nulls the context of every
      refund request of that payout's transaction and of no other; when no
      payout has that id, or its transaction id is empty, the refund
      requests are untouched. */
  lemma FinalizePayoutClearsLinked(db: Store, id: nat, status: string)
    requires db.connected
    ensures var u := UpdateClaimStatus(db, "company_refund_queue", id, status, true);
      var p := FirstPayoutWithId(db.payouts, id);
      if p.Some? && p.value.transactionId != "" then
        forall i :: 0 <= i < |db.refunds| ==>
          u.db.refunds[i] == (if db.refunds[i].transactionId == p.value.transactionId then Cleared(db.refunds[i])
                              else db.refunds[i])
      else u.db.refunds == db.refunds
  {
    FirstPayoutAfterStatus(db.payouts, id, status);
  }

  /** Helper: the first row `update` returns is the first matching entry
      with its new status. */
  lemma {:induction false} FirstPayoutAfterStatus(rows: seq<PayoutEntry>, id: nat, status: string)
    ensures var r := PayoutsWithId(SetPayoutStatus(rows, id, status), id);
      var p := FirstPayoutWithId(rows, id);
      (|r| > 0 <==> p.Some?) && (p.Some? ==> r[0] == PayoutRow(p.value.(status := status)))
  {
    if |rows| > 0 {
      var u := SetPayoutStatus(rows, id, status);
      assert u[1..] == SetPayoutStatus(rows[1..], id, status);
      assert u[0] == if rows[0].id == id then rows[0].(status := status) else rows[0];
      assert PayoutsWithId(u, id) == (if u[0].id == id then [PayoutRow(u[0])] else []) + PayoutsWithId(u[1..], id);
      FirstPayoutAfterStatus(rows[1..], id, status);
    }
  }

  /** Finalising an escalation never touches a refund request. */
  lemma FinalizeEscalationClearsNothing(db: Store, id: nat, status: string, clear: bool)
    ensures UpdateClaimStatus(db, "escalation_requests", id, status, clear).db.refunds == db.refunds
  {
  }

  /** Applying the same update twice has the effect of applying it once. */
  lemma UpdateIdempotent(db: Store, table: string, id: nat, status: string, clear: bool)
    ensures var u := UpdateClaimStatus(db, table, id, status, clear);
      UpdateClaimStatus(u.db, table, id, status, clear).db == u.db
  {
    if db.connected {
      match TableNamed(table)
      case None =>
      case Some(RefundRequests) => RefundUpdateTwice(db.refunds, id, status, clear);
      case Some(RefundQueue) => PayoutUpdateTwice(db, id, status, clear);
      case Some(EscalationRequests) =>
        var once := SetEscalationStatus(db.escalations, id, status);
        assert SetEscalationStatus(once, id, status) == once;
    }
  }

  /** Helper: the refund-request update is idempotent. */
  lemma RefundUpdateTwice(rows: seq<RefundRequest>, id: nat, status: string, clear: bool)
    ensures var once := SetRefundStatus(rows, id, status);
      var u := if clear then ClearById(once, id) else once;
      var twice := SetRefundStatus(u, id, status);
      (if clear then ClearById(twice, id) else twice) == u
  {
  }

  /** Helper: the payout update is idempotent, and so is the clearing of
      the linked requests, which finds the same transaction again. */
  lemma PayoutUpdateTwice(db: Store, id: nat, status: string, clear: bool)
    requires db.connected
    ensures var u := UpdateClaimStatus(db, "company_refund_queue", id, status, clear);
      UpdateClaimStatus(u.db, "company_refund_queue", id, status, clear).db == u.db
  {
    var once := SetPayoutStatus(db.payouts, id, status);
    assert SetPayoutStatus(once, id, status) == once;
    var rows := PayoutsWithId(once, id);
    if clear && |rows| > 0 && rows[0].payout.transactionId != "" {
      var t := rows[0].payout.transactionId;
      var linked := ClearByTransaction(db.refunds, t);
      assert ClearByTransaction(linked, t) == linked;
    }
  }

  /** Status updates keep the ids valid. */
  lemma UpdateKeepsValid(db: Store, table: string, id: nat, status: string, clear: bool)
    requires Valid(db)
    ensures Valid(UpdateClaimStatus(db, table, id, status, clear).db)
  {
    var u := UpdateClaimStatus(db, table, id, status, clear);
    assert SameIds(db, u.db);
  }

  /** `update_company_policy`: the policy of every company with that id is
      replaced; the other companies and all claim tables are untouched. */
  function UpdateCompanyPolicy(db: Store, cid: string, policy: string): (r: Store)
    ensures !db.connected ==> r == db
    ensures |r.companies| == |db.companies|
    ensures db.connected ==> forall i :: 0 <= i < |db.companies| ==>
              r.companies[i] == (if db.companies[i].id == cid then Company(cid, policy) else db.companies[i])
    ensures r == db.(companies := r.companies)
  {
    if !db.connected then db
    else db.(companies := seq(|db.companies|, i requires 0 <= i < |db.companies| =>
                                if db.companies[i].id == cid then db.companies[i].(returnPolicy := policy)
                                else db.companies[i]))
  }
}

=== FILE: text.dfy ===
/** String primitives with Python semantics: `str.strip`, `str.lower` as far
    as ASCII is concerned, substring search, and the case-insensitive
    character comparison of Python's `re.IGNORECASE`. */
module Text {
  import opened Wrappers

  /** Python's `str.isspace` (the set `str.strip()` and the regex class `\s`
      use): the ASCII controls 9-13 and 28-31, the space, U+0085, U+00A0,
      U+1680, U+2000-U+200A, U+2028, U+2029, U+202F, U+205F and U+3000. */
  predicate IsSpace(c: char)
  {
    ('\t' <= c <= '\r') || ('\U{1C}' <= c <= '\U{1F}') || c == ' '
    || c == '\U{85}' || c == '\U{A0}' || c == '\U{1680}'
    || ('\U{2000}' <= c <= '\U{200A}') || c == '\U{2028}' || c == '\U{2029}'
    || c == '\U{202F}' || c == '\U{205F}' || c == '\U{3000}'
  }

  /** The end of the run of whitespace starting at `i`. */
  function SkipSpaces(s: string, i: nat): (e: nat)
    requires i <= |s|
    decreases |s| - i
    ensures i <= e <= |s|
    ensures forall k :: i <= k < e ==> IsSpace(s[k])
    ensures e < |s| ==> !IsSpace(s[e])
  {
    if i < |s| && IsSpace(s[i]) then SkipSpaces(s, i + 1) else i
  }

  /** The start of the run of whitespace ending at `j`, not going below
      `lo`. */
  function SkipSpacesBack(s: string, lo: nat, j: nat): (b: nat)
    requires lo <= j <= |s|
    ensures lo <= b <= j
    ensures forall k :: b <= k < j ==> IsSpace(s[k])
    ensures b > lo ==> !IsSpace(s[b - 1])
  {
    if j > lo && IsSpace(s[j - 1]) then SkipSpacesBack(s, lo, j - 1) else j
  }

  /** No leading and no trailing whitespace. */
  predicate Stripped(s: string)
  {
    |s| == 0 || (!IsSpace(s[0]) && !IsSpace(s[|s| - 1]))
  }

  /** `r` is `s` with the whitespace characters before index `a` and after
      index `a + |r|` cut off. */
  predicate TrimmedAt(s: string, r: string, a: int)
  {
    && 0 <= a <= |s| - |r|
    && r == s[a..a + |r|]
    && (forall i :: 0 <= i < a ==> IsSpace(s[i]))
    && (forall i :: a + |r| <= i < |s| ==> IsSpace(s[i]))
  }

  /** `str.strip()`: the result is a slice of `s`, every character cut off
      either end is whitespace, and the result itself is stripped. */
  function Strip(s: string): (r: string)
    ensures |r| <= |s|
    ensures Stripped(r)
    ensures exists a :: TrimmedAt(s, r, a)
  {
    var a := SkipSpaces(s, 0);
    var b := SkipSpacesBack(s, a, |s|);
    var r := s[a..b];
    assert TrimmedAt(s, r, a);
    r
  }

  /** `strip` is characterised by its contract: any stripped slice that
      only whitespace was cut from is the result of `strip`. */
  lemma StripUnique(s: string, r: string, a: int)
    requires TrimmedAt(s, r, a) && Stripped(r)
    ensures Strip(s) == r
  {
    var q := Strip(s);
    var b :| TrimmedAt(s, q, b);
    if |r| > 0 {
      assert s[a] == r[0] && s[a + |r| - 1] == r[|r| - 1];
      if |q| > 0 {
        assert s[b] == q[0] && s[b + |q| - 1] == q[|q| - 1];
      }
    }
  }

  /** Whitespace added around a string does not survive `strip`. */
  lemma StripPadded(pre: string, x: string, post: string)
    requires forall i :: 0 <= i < |pre| ==> IsSpace(pre[i])
    requires forall i :: 0 <= i < |post| ==> IsSpace(post[i])
    ensures Strip(pre + x + post) == Strip(x)
  {
    var q := Strip(x);
    var c :| TrimmedAt(x, q, c);
    PaddedTrimmed(pre, x, post, q, c);
    StripUnique(pre + x + post, q, |pre| + c);
  }

  /** Helper: a trimming of `x` is a trimming of `x` padded with
      whitespace. */
  lemma PaddedTrimmed(pre: string, x: string, post: string, q: string, c: int)
    requires forall i :: 0 <= i < |pre| ==> IsSpace(pre[i])
    requires forall i :: 0 <= i < |post| ==> IsSpace(post[i])
    requires TrimmedAt(x, q, c)
    ensures TrimmedAt(pre + x + post, q, |pre| + c)
  {
    var s := pre + x + post;
    var a := |pre| + c;
    forall i | 0 <= i < a ensures IsSpace(s[i]) {
      if i < |pre| {
        assert s[i] == pre[i];
      } else {
        assert s[i] == x[i - |pre|];
      }
    }
    forall i | a + |q| <= i < |s| ensures IsSpace(s[i]) {
      if i < |pre| + |x| {
        assert s[i] == x[i - |pre|];
      } else {
        assert s[i] == post[i - |pre| - |x|];
      }
    }
    SliceOfMiddle(pre, x, post, c, |q|);
  }

  /** Helper: a slice of the middle part of a concatenation. */
  lemma SliceOfMiddle(pre: string, x: string, post: string, c: nat, n: nat)
    requires c + n <= |x|
    ensures (pre + x + post)[|pre| + c..|pre| + c + n] == x[c..c + n]
  {
    var s := pre + x + post;
    var m, y := s[|pre| + c..|pre| + c + n], x[c..c + n];
    forall k | 0 <= k < n ensures m[k] == y[k] {
      assert s[|pre| + c + k] == x[c + k];
    }
  }

  /** Stripping a string that is already stripped changes nothing. */
  lemma StripStripped(s: string)
    requires Stripped(s)
    ensures Strip(s) == s
  {
  }

  /** `strip` is idempotent. */
  lemma StripIdempotent(s: string)
    ensures Strip(Strip(s)) == Strip(s)
  {
    StripStripped(Strip(s));
  }

  /** The case-insensitive character comparison of Python's `re` module with
      `re.IGNORECASE` on a str pattern, restricted to the characters that
      fold onto ASCII letters: the 52 ASCII letters and, as the Python
      documentation lists, U+0130 and U+0131 (both fold to `i`), U+017F
      (long s) and U+212A (Kelvin sign). Every other character is its own
      fold. */
  function ReFold(c: char): char
  {
    if 'A' <= c <= 'Z' then (c as int + 32) as char
    else if c == '\U{130}' || c == '\U{131}' then 'i'
    else if c == '\U{17F}' then 's'
    else if c == '\U{212A}' then 'k'
    else c
  }

  /** `a` matches the lower-case ASCII literal `lit` under `re.IGNORECASE`. */
  predicate ReMatchesCI(a: string, lit: string)
  {
    |a| == |lit| && forall i :: 0 <= i < |a| ==> ReFold(a[i]) == lit[i]
  }

  /** ASCII lower-casing of one character. */
  function LowerChar(c: char): char
  {
    if 'A' <= c <= 'Z' then (c as int + 32) as char else c
  }

  /** `str.lower()` as seen by a search for an all-ASCII lower-case word:
      no character other than `A`-`Z` lowers to an ASCII letter other than
      `i` and `k`, so for words without those two letters this agrees with
      Python's full Unicode lowering. */
  function Lower(s: string): (r: string)
    ensures |r| == |s|
    ensures forall i :: 0 <= i < |s| ==> r[i] == LowerChar(s[i])
  {
    if |s| == 0 then "" else [LowerChar(s[0])] + Lower(s[1..])
  }

  /** `t` occurs in `s` starting at index `i`. */
  predicate IsAt(s: string, t: string, i: nat)
  {
    i + |t| <= |s| && s[i..i + |t|] == t
  }

  /** `s.endswith(t)`. */
  predicate EndsIn(s: string, t: string)
  {
    |t| <= |s| && s[|s| - |t|..] == t
  }

  /** The right part of a concatenation occurs right after the left one. */
  lemma IsAtEnd(a: string, t: string)
    ensures IsAt(a + t, t, |a|)
  {
    assert (a + t)[|a|..|a| + |t|] == t;
  }

  /** An occurrence stays put when more text is appended. */
  lemma IsAtExtend(s: string, t: string, i: nat, b: string)
    requires IsAt(s, t, i)
    ensures IsAt(s + b, t, i)
  {
    assert (s + b)[i..i + |t|] == s[i..i + |t|];
  }

  /** A concatenation starts with its left part and ends in its right one. */
  lemma ConcatParts(a: string, b: string)
    ensures IsAt(a + b, a, 0) && EndsIn(a + b, b)
  {
    assert (a + b)[..|a|] == a;
  }

  /** A suffix of a suffix is a suffix. */
  lemma EndsInTrans(s: string, t: string, u: string)
    requires EndsIn(s, t) && EndsIn(t, u)
    ensures EndsIn(s, u)
  {
    assert s[|s| - |u|..] == t[|t| - |u|..];
  }

  /** `t in s`. */
  predicate Contains(s: string, t: string)
  {
    exists i: nat | i <= |s| :: IsAt(s, t, i)
  }

  /** `s.find(t, from)`: the first occurrence of `t` at or after `from`. */
  function IndexFrom(s: string, t: string, from: nat): (r: Option<nat>)
    decreases |s| - from
    ensures r.Some? ==> from <= r.value && IsAt(s, t, r.value)
    ensures r.Some? ==> forall k: nat :: from <= k < r.value ==> !IsAt(s, t, k)
    ensures r.None? ==> forall k: nat :: from <= k ==> !IsAt(s, t, k)
  {
    if from + |t| > |s| then None
    else if IsAt(s, t, from) then Some(from)
    else IndexFrom(s, t, from + 1)
  }

  /** `t in s`, computed by the search. */
  lemma IndexFromContains(s: string, t: string)
    ensures IndexFrom(s, t, 0).Some? <==> Contains(s, t)
  {
  }

  /** The search finds the first occurrence. */
  lemma IndexFromIs(s: string, t: string, from: nat, k: nat)
    requires from <= k && IsAt(s, t, k)
    requires forall j: nat :: from <= j < k ==> !IsAt(s, t, j)
    ensures IndexFrom(s, t, from) == Some(k)
  {
  }

  /** The Markdown code fence. */
  const Fence: string := "```"

  /** `s.replace(c, "")` for one character. */
  function RemoveChar(s: string, c: char): (r: string)
    ensures |r| <= |s|
    ensures forall i :: 0 <= i < |r| ==> r[i] != c
    ensures (forall i :: 0 <= i < |s| ==> s[i] != c) ==> r == s
  {
    if |s| == 0 then ""
    else if s[0] == c then RemoveChar(s[1..], c)
    else [s[0]] + RemoveChar(s[1..], c)
  }

  /** Removal works character by character: on a single character it
      drops `c` and keeps anything else, and on a concatenation it is the
      concatenation of the two removals, so every other character survives
      in its original order. */
  lemma {:induction false} RemoveCharAppend(a: string, b: string, c: char)
    ensures RemoveChar(a + b, c) == RemoveChar(a, c) + RemoveChar(b, c)
    ensures RemoveChar([c], c) == ""
    ensures forall x :: x != c ==> RemoveChar([x], c) == [x]
  {
    if |a| > 0 {
      RemoveCharAppend(a[1..], b, c);
      assert (a + b)[1..] == a[1..] + b;
    } else {
      assert a + b == b;
    }
  }

  /** `s.replace(t, "", 1)`: the first occurrence of `t`, if any, is cut out. */
  function RemoveFirst(s: string, t: string): (r: string)
    requires |t| > 0
    ensures IndexFrom(s, t, 0).None? ==> r == s
    ensures IndexFrom(s, t, 0).Some? ==>
              var i := IndexFrom(s, t, 0).value;
              |r| == |s| - |t| && r == s[..i] + s[i + |t|..]
  {
    match IndexFrom(s, t, 0)
    case None => s
    case Some(i) => s[..i] + s[i + |t|..]
  }
}

=== FILE: wrappers.dfy ===
/** Option and JSON values shared by every component of the claims engine. */
module Wrappers {

  /** A result that may be missing: `None` stands for a Python `None` or an
      absent row. */
  datatype Option<+T> = None | Some(value: T)

  /** The outcome of a Python call that may raise: its value, or an
      exception that escapes to the caller. */
  datatype Outcome<+T> = Done(value: T) | Raised

  /** A value produced by the (external) JSON parser. `JNull` is also what
      `dict.get` returns for a missing key. Numbers are integers: JSON
      numbers with a fraction or an exponent are not represented. */
  datatype Json =
    | JNull
    | JBool(b: bool)
    | JNum(n: int)
    | JStr(s: string)
    | JArr(items: seq<Json>)
    | JObj(fields: map<string, Json>)

  /** Python truthiness of a parsed JSON value. */
  predicate Truthy(j: Json)
  {
    match j
    case JNull => false
    case JBool(b) => b
    case JNum(n) => n != 0
    case JStr(s) => s != ""
    case JArr(a) => |a| > 0
    case JObj(m) => |m| > 0
  }

  /** `d.get(key, default)` on a parsed JSON object. */
  function GetOr(m: map<string, Json>, key: string, default: Json): (r: Json)
    ensures key in m ==> r == m[key]
    ensures key !in m ==> r == default
  {
    if key in m then m[key] else default
  }

  /** `d.get(key)`: a missing key reads as `None`. */
  function Get(m: map<string, Json>, key: string): (r: Json)
    ensures key !in m ==> r == JNull
  {
    GetOr(m, key, JNull)
  }
}
